=== FILE: README.md ===
# Virtual desktop provisioning: the decision and encoding core

This project models in Dafny the pure rules of a small system. The system
provisions short-lived cloud desktops and registers each one with a
browser-based remote-access gateway. Every provider and database call
becomes an input. What remains is proved as total functions over strings,
sequences and small enumerations.

- **Fleet** covers `listInstances`. It normalises the raw machine type to
  the `t3` family, derives the display tier from the size suffix, picks the
  display name from the `Name` tag, and flattens reservations. It also holds
  the `tierToSize` table.
- **Catalog** covers `listAmis` and `fetchLatestAmi`: the newest image per
  registry query (stable sort, so ties go to the earliest), relabelled, with
  empty queries dropped. It also holds the first-match lookup of an image id.
- **Password** covers `GeneratePassword`. It maps random bytes into the
  70-character alphabet; the bytes are a parameter.
- **Provisioning** covers `addInstance`:
  - protocol inference and the OS flags read off the image label;
  - first-boot script selection, gateway username and port;
  - the launch request, including the Base64 user data;
  - the bounded 15-attempt address poll, the ingress loop that tolerates
    `InvalidPermission.Duplicate` and `InvalidPermission.Malformed`, and the
    two gateway database writes.

  All of this is one function from the calls' answers (`Responses`) to an
  outcome and the trace of calls issued (`Effect`).
- **Viewer** covers the gateway client identifier: `id NUL "c" NUL "mysql"`,
  Base64-encoded as in section 4 of RFC 4648, with trailing pad characters
  removed (section 3.2). It also covers the connection filter and the tunnel
  connect string.
- **NewDay** covers the launch form:
  - the join of instances with catalog labels, with the fallback label
    "Ubuntu 22.04 LTS";
  - the default Ubuntu image;
  - the effect of a change of selection on the five form fields;
  - the launch-button rule and the launch request body.
- **Base64**, **Bytes** and **Text** are the supporting encodings:
  - RFC 4648 encode/decode, padding and stripping;
  - ASCII and UTF-8 bytes;
  - JavaScript `split`/`join`, `startsWith`, `includes`, ASCII `toLowerCase`
    and `String(n)`;
  - `Wrappers` holds `Option`.

Two behaviours of the code worth knowing:

- `listAmis` runs its five queries under one `Promise.all`, so one failing
  registry query fails the whole catalog. `Catalog.ListAmis` is `None`
  unless every query answered.
- `addInstance` does not validate its inputs:
  - an unknown tier launches with no instance type (`instanceType == None`);
  - an image id that is not in the catalog proceeds with no image label, so
    no OS flag is set and the protocol is ssh.

## Model

| member | source | states |
|---|---|---|
| Fleet.ParseTier | server/src/services/ec2Service.ts:114-120 | looking a tier name up in the size table succeeds exactly for "Basic", "Standard" and "Premium", and the tier found carries that name |
| Fleet.TierNameRoundTrip | server/src/services/ec2Service.ts:15 | each tier's name is one of the listed pricing tiers and looks up to that same tier |
| Fleet.SizeForTier | server/src/services/ec2Service.ts:114-118 | each tier's machine size starts with "t3", so the inventory lists a launched machine under that same type |
| Fleet.NormaliseType | server/src/services/ec2Service.ts:70-72 | the displayed type always starts with "t3"; a raw type that starts with "t3" is kept unchanged; any other or absent type becomes "t3." followed by one dot-free field (the two lemmas below say which) |
| Fleet.NormaliseOtherFamily | server/src/services/ec2Service.ts:72 | a type outside the t3 family whose first two dot fields are a family and a size (anything after them starting with a dot) is displayed as "t3." followed by that size, the second field of its split at "." |
| Fleet.NormaliseWithoutSize | server/src/services/ec2Service.ts:72 | a type outside the t3 family with no dot, or an absent type, is displayed as "t3.undefined", the text of the missing second field |
| Fleet.TierOfSuffix | server/src/services/ec2Service.ts:74-93 | Basic exactly for nano/micro/small; Premium exactly for large/xlarge/2xlarge/4xlarge/8xlarge; Standard for every other suffix, including medium and no suffix |
| Fleet.NormalisePreservesTier | server/src/services/ec2Service.ts:70-93 | normalising never changes the derived tier: the tier of the displayed type is the switch applied to the raw type's own size suffix |
| Fleet.TierSizeRoundTrip | server/src/services/ec2Service.ts:114-118 | every tier's launch size (t3.micro, t3.medium, t3a.large) passes normalisation unchanged and displays as that same tier |
| Fleet.FindNameTag | server/src/services/ec2Service.ts:97 | finds the first tag whose key is "Name", or reports that no tag has that key |
| Fleet.DisplayName | server/src/services/ec2Service.ts:97 | the listed name is never empty; it is the first Name tag's value when that value is present and non-empty, and "(no name)" otherwise |
| Fleet.ListInstance | server/src/services/ec2Service.ts:70-102 | id, image id and state are copied; the name is the display name; the type is the normalised raw type, so in the t3 family; the tier is the switch on the raw type's suffix |
| Fleet.FlattenReservations | server/src/services/ec2Service.ts:68-104 | every present entry has a t3 type and a non-empty name; if every reservation has an instance list, no entry is absent; a reservation without an instance list gives a single absent entry, as `flatMap` keeps `undefined` |
| Fleet.FlattenAppend | server/src/services/ec2Service.ts:68-69 | flattening distributes over concatenation, so reservation order and instance order are kept |
| Fleet.FlattenOne | server/src/services/ec2Service.ts:68-69 | one reservation lists exactly its own instances, in order |
| Fleet.ListInstances | server/src/services/ec2Service.ts:64-69 | the listing is absent exactly when the provider's answer has no reservation list; otherwise every present entry has a t3 type and a non-empty name |
| Catalog.NewestIndex | server/src/services/ec2Service.ts:339-344 | no position exactly when there are no images; otherwise the position a stable newest-first sort moves to the front: the newest image, the earliest of equally new ones |
| Catalog.FirstNewestUnique | server/src/services/ec2Service.ts:339-342 | that position is unique, so the chosen image is determined |
| Catalog.FetchLatestAmi | server/src/services/ec2Service.ts:327-350 | null exactly when the query matched no image; otherwise the newest image's id under the query's display label |
| Catalog.Present | server/src/services/ec2Service.ts:61 | dropping nulls never lengthens the list, keeps only values that were present, and drops nothing when all are present |
| Catalog.PresentAppend | server/src/services/ec2Service.ts:61 | dropping nulls distributes over concatenation, so query order is kept |
| Catalog.PresentAllSome | server/src/services/ec2Service.ts:61 | with no null, every entry stays at its position |
| Catalog.Fetched | server/src/services/ec2Service.ts:37-59 | the i-th result is null exactly when the i-th query matched no image; otherwise it carries the i-th label and the id of that query's newest image (the earliest of equally new ones) |
| Catalog.ListAmis | server/src/services/ec2Service.ts:36-62 | a catalog exists exactly when every query answered; it has at most five entries, each labelled with one of the five labels (which entries, in which order: CatalogOrder) |
| Catalog.CatalogComplete | server/src/services/ec2Service.ts:37-61 | when every query matches an image, the catalog lists the five labels in query order |
| Catalog.CatalogOrder | server/src/services/ec2Service.ts:37-61 | when every query answered, the catalog has one entry per query that returned an image, in query order, and entry j is the newest image of the j-th such query under its label; queries that returned nothing are dropped |
| Catalog.SomePositions | server/src/services/ec2Service.ts:61 | the positions of the non-null entries: exactly those, in increasing order |
| Catalog.PresentAtPositions | server/src/services/ec2Service.ts:61 | dropping nulls keeps exactly the values at the non-null positions, in order |
| Catalog.QueryLabels | server/src/services/ec2Service.ts:37-59 | the five labels are the display names of the five queries, in order |
| Catalog.FindLabel | server/src/services/ec2Service.ts:122 | finds a label exactly when some entry has the id, and then it is the label of the first such entry |
| Password.CharactersLayout | server/src/helpers/string.ts:1-5 | the alphabet has 70 characters: A-Z at 0-25, a-z at 26-51, 0-9 at 52-61, the eight symbols at 62-69 |
| Password.SymbolIndex | server/src/helpers/string.ts:5 | the position of a character among the symbols, in range exactly when it is one |
| Password.CharIndex | server/src/helpers/string.ts:1-5 | every password character has a position in the alphabet |
| Password.CharIndexOf | server/src/helpers/string.ts:1-5 | the character at each alphabet position is a password character and maps back to that position |
| Password.CharIndexInverse | server/src/helpers/string.ts:1-5 | the alphabet character at a password character's position is that character |
| Password.IsPasswordCharIff | server/src/helpers/string.ts:1-5 | the character-class test holds exactly for the characters of the alphabet string |
| Password.GeneratePassword | server/src/helpers/string.ts:7-25 | a non-positive length gives ""; otherwise the requested length; every character is in the alphabet, and character i is at position byte i mod 70 |
| Password.GeneratePasswordLoop | server/src/helpers/string.ts:16-24 | the character loop builds a password of the requested length whose character i is the alphabet character at byte i mod 70 |
| Password.LoopAgrees | server/src/helpers/string.ts:16-24 | the loop's password and the functional definition coincide |
| Provisioning.Flags | server/src/services/ec2Service.ts:134-136 | each OS flag holds exactly when there is an image label and it contains "Windows", "Ubuntu" or "Amazon Linux" |
| Provisioning.InferProtocol | server/src/services/ec2Service.ts:124-129 | an explicit protocol is kept; otherwise rdp exactly when the label contains "Windows" or "RDP", ssh otherwise, never vnc |
| Provisioning.SelectScript | server/src/services/ec2Service.ts:131-185 | the first-boot script is empty exactly for vnc and for rdp on an image of no known family (which script runs otherwise: ScriptTable) |
| Provisioning.ScriptTable | server/src/services/ec2Service.ts:138-185 | the script opens with the PowerShell block exactly for rdp on Windows; with the apt-get xrdp/xfce4 cloud-config exactly for rdp on Ubuntu (not Windows); with the yum xrdp cloud-config exactly for rdp on Amazon Linux (neither of the others); with the ssh_pwauth cloud-config exactly for ssh |
| Provisioning.WindowsOpening | server/src/services/ec2Service.ts:140-144 | the Windows script opens with the PowerShell block and with none of the three cloud-config openings |
| Provisioning.AptXrdpOpens | server/src/services/ec2Service.ts:146-157 | the Ubuntu rdp script opens with the apt-get xrdp/xfce4 cloud-config and with none of the other openings |
| Provisioning.YumXrdpOpens | server/src/services/ec2Service.ts:159-173 | the Amazon Linux rdp script opens with the yum xrdp cloud-config and with none of the other openings |
| Provisioning.SshOpens | server/src/services/ec2Service.ts:176-184 | the ssh script opens with the ssh_pwauth cloud-config and with none of the other openings |
| Provisioning.ScriptSetsGatewayCredentials | server/src/services/ec2Service.ts:138-185 | every non-empty script contains the password and sets the gateway username's password |
| Provisioning.WindowsScriptCredentials | server/src/services/ec2Service.ts:140-144 | the PowerShell script sets the Administrator password to the generated password |
| Provisioning.UbuntuRdpScriptCredentials | server/src/services/ec2Service.ts:146-157 | the xrdp/xfce4 cloud-config sets the password of ubuntu |
| Provisioning.AmazonRdpScriptCredentials | server/src/services/ec2Service.ts:159-173 | the yum xrdp cloud-config sets the password of ec2-user |
| Provisioning.SshScriptCredentials | server/src/services/ec2Service.ts:176-184 | the chpasswd cloud-config sets the password of the given user |
| Provisioning.Username | server/src/services/ec2Service.ts:261-270 | the username is Administrator exactly for rdp on Windows; otherwise ubuntu exactly on Ubuntu; otherwise ec2-user |
| Provisioning.Port | server/src/services/ec2Service.ts:273 | 3389 exactly for rdp, 22 exactly for ssh, otherwise 5900; always one of the ports opened for ingress |
| Provisioning.PortInjective | server/src/services/ec2Service.ts:273 | different protocols get different ports |
| Provisioning.PortStrings | server/src/services/ec2Service.ts:295 | the port parameter is written as "3389", "22" and "5900" |
| Provisioning.Parameters | server/src/services/ec2Service.ts:283-296 | the six gateway parameters in order: hostname, username, password, ignore-cert "true", security "any", and the port written in decimal, which reads back as the port |
| Provisioning.LaunchRequest | server/src/services/ec2Service.ts:187-203 | image, one instance, key pair "days-keypair"; an instance type exactly for a known tier, and then its size; Name and PricingTier tags; user data that decodes to the script's UTF-8 bytes |
| Provisioning.Poll | server/src/services/ec2Service.ts:212-223 | the poll stops at the first answer with a non-empty address or at the first error; it finds nothing exactly when every answer had no address yet; earlier answers had no address |
| Provisioning.PollFindsFirstAddress | server/src/services/ec2Service.ts:213-221 | when the first address appears on answer k, the poll returns it after k+1 calls |
| Provisioning.PollFoundIsFirst | server/src/services/ec2Service.ts:213-221 | an address the poll returns is the first one offered |
| Provisioning.Tolerated | server/src/services/ec2Service.ts:248-255 | an ingress answer is skipped exactly when it is a success, an InvalidPermission.Duplicate error or an InvalidPermission.Malformed error |
| Provisioning.FirstAddressUnique | server/src/services/ec2Service.ts:213-221 | there is only one first address |
| Provisioning.AuthorizeAll | server/src/services/ec2Service.ts:233-258 | ingress succeeds exactly when every error is a tolerated one; otherwise it stops at the first other error |
| Provisioning.DescribeCalls | server/src/services/ec2Service.ts:213-216 | the poll's calls all describe the launched instance |
| Provisioning.IngressCalls | server/src/services/ec2Service.ts:227-247 | ingress calls open 3389, 22 and 5900 in that order on the instance's security group |
| Provisioning.MakePlan | server/src/services/ec2Service.ts:121-185 | the password has 12 alphabet characters; a requested protocol is used and an inferred one is never vnc; an image found in the catalog is Windows, Ubuntu or Amazon Linux exactly as its label contains "Windows", "Ubuntu" or "Amazon Linux", and an inferred protocol is rdp exactly when the label contains "Windows" or "RDP"; an image missing from the catalog has no family and, unless a protocol is requested, gets ssh; the script is empty exactly for vnc or rdp with no known family, and otherwise sets the gateway user's password to the plan's |
| Provisioning.LaunchedWithId | server/src/services/ec2Service.ts:206-208 | the launch counts as started exactly when the first launched instance is present with a non-empty id |
| Provisioning.Connect | server/src/services/ec2Service.ts:205-298 | after launch, success carries the launched id, the first address offered, the key name and the protocol |
| Provisioning.Provision | server/src/services/ec2Service.ts:107-303 | a failed catalog fails before any call; success carries the key name as connection name, a non-empty address and the launched instance id |
| Provisioning.ProvisionSucceedsIff | server/src/services/ec2Service.ts:107-303 | provisioning succeeds exactly when the catalog, launch, poll, every ingress call and both database writes succeed |
| Provisioning.ProvisionedAddress | server/src/services/ec2Service.ts:298 | when every call succeeds, the launch reports a connection whose protocol is the inferred one and whose address is the first one the poll was offered |
| Provisioning.RecordedConnection | server/src/services/ec2Service.ts:260-296 | when every call succeeds, the launch ends with the connection upsert and the parameter insert; these carry the address, username, password and port, and the script sets that same username and password |
| Provisioning.LaunchedAndOpened | server/src/services/ec2Service.ts:187-258 | when every call succeeds, the launch starts with the launch request, whose user data decodes to the script, and opened ingress on the protocol's port |
| Provisioning.NoAddressNoConnection | server/src/services/ec2Service.ts:212-225 | if no address ever appears, the launch fails after exactly fifteen describe calls and writes nothing to the gateway |
| Provisioning.IngressErrorStops | server/src/services/ec2Service.ts:248-256 | an untolerated ingress error fails the launch after trying the ports in order up to it, with no gateway write |
| Provisioning.ConnectPollsFirst | server/src/services/ec2Service.ts:205-258 | after launch, the describe calls come first and number at most fifteen |
| Provisioning.PollIsBounded | server/src/services/ec2Service.ts:213 | whatever the answers, describe calls sit only at trace positions 1 to 15 |
| Provisioning.UbuntuLaunchScenario | server/src/services/ec2Service.ts:107-298 | Ubuntu 22.04 on the Standard tier with every call succeeding: ssh is inferred and the launched instance is reported at the address of the second describe answer |
| Provisioning.StandardLaunchRequest | server/src/services/ec2Service.ts:114-120 | a Standard-tier launch requests a t3.medium machine as its first call |
| Provisioning.UbuntuGatewayParameters | server/src/services/ec2Service.ts:260-296 | the Ubuntu 22.04 launch ends by recording hostname, username ubuntu, the generated password, ignore-cert, security any and port "22" |
| Provisioning.ConnectProvisions | server/src/services/ec2Service.ts:212-298 | once the poll finds an address and every ingress and database call succeeds, the instance is reported at that address with the planned protocol |
| Provisioning.ConnectSucceeded | server/src/services/ec2Service.ts:212-296 | a successful connection step made the describe calls, all three ingress calls, then the connection upsert and the parameter insert, in that order |
| Provisioning.ConnectIngressError | server/src/services/ec2Service.ts:233-257 | an untolerated ingress error after tolerated ones fails the step after exactly that many ingress calls, with no database write |
| Provisioning.UbuntuPlan | server/src/services/ec2Service.ts:121-182 | the Ubuntu 22.04 label plans ssh with the chpasswd script for ubuntu |
| Provisioning.AmazonLinuxFamily | server/src/services/ec2Service.ts:124-136 | a plain Amazon Linux label is of that family only and infers ssh |
| Provisioning.AmazonDesktopFamily | server/src/services/ec2Service.ts:124-136 | an Amazon Linux label containing "RDP" is of that family only and infers rdp |
| Provisioning.UbuntuFamily | server/src/services/ec2Service.ts:124-136 | a plain Ubuntu label is of that family only and infers ssh |
| Provisioning.UbuntuDesktopFamily | server/src/services/ec2Service.ts:124-136 | an Ubuntu label containing "RDP" is of that family only and infers rdp |
| Provisioning.WindowsFamily | server/src/services/ec2Service.ts:124-136 | a Windows label is of that family only and infers rdp |
| Provisioning.AmazonLinuxLabel | server/src/services/ec2Service.ts:38 | "Amazon Linux 2" is Amazon Linux and infers ssh |
| Provisioning.AmazonDesktopLabel | server/src/services/ec2Service.ts:39-43 | "Amazon Linux 2 GUI Desktop (RDP)" is Amazon Linux and infers rdp |
| Provisioning.UbuntuLabel | server/src/services/ec2Service.ts:44-48 | "Ubuntu 22.04 LTS" is Ubuntu and infers ssh |
| Provisioning.UbuntuDesktopLabel | server/src/services/ec2Service.ts:49-53 | "Ubuntu Desktop (RDP)" is Ubuntu and infers rdp |
| Provisioning.WindowsLabel | server/src/services/ec2Service.ts:54-58 | "Windows Server 2022" is Windows and infers rdp |
| Base64.Encode | server/src/services/ec2Service.ts:193 | the padded encoding has four characters per started three octets, all from the alphabet or "=" |
| Base64.DecodeEncode | server/src/services/ec2Service.ts:193 | decoding inverts the padded encoding |
| Base64.StripPadding | client/src/components/Viewer.tsx:115 | removes exactly the trailing run of "=" and nothing before it |
| Base64.StripEncode | client/src/components/Viewer.tsx:114-115 | stripping a padded encoding leaves the unpadded encoding |
| Base64.OctetsSextets | client/src/components/Viewer.tsx:114 | regrouping the 6-bit values of some octets gives the octets back |
| Bytes.AsciiBytes | client/src/components/Viewer.tsx:102-104 | an ASCII string becomes one octet below 128 per character |
| Bytes.AsciiRoundTrip | client/src/components/Viewer.tsx:102-104 | reading those octets back gives the string |
| Bytes.Utf8Char | server/src/services/ec2Service.ts:193 | one to four octets per character, a single octet equal to the code exactly for ASCII |
| Bytes.Utf8OfAscii | server/src/services/ec2Service.ts:193 | on ASCII text UTF-8 and ASCII bytes coincide |
| Text.Split | server/src/services/ec2Service.ts:72 | splitting yields at least one field, none containing the delimiter |
| Text.SplitJoin | server/src/services/ec2Service.ts:75 | splitting a join of delimiter-free fields gives the fields back |
| Text.JoinSplit | server/src/services/ec2Service.ts:72 | joining the fields of a split gives the original back |
| Text.Decimal | server/src/services/ec2Service.ts:295 | the decimal form of a number is non-empty, all digits, with no leading zero |
| Text.ParseDecimalOf | server/src/services/ec2Service.ts:295 | reading a decimal form back gives the number |
| Viewer.IdentifierPayload | client/src/components/Viewer.tsx:102-113 | the payload is the id's bytes, NUL, "c", NUL, "mysql" |
| Viewer.EncodeIdentifier | client/src/components/Viewer.tsx:101-115 | the unpadded RFC 4648 encoding of the payload: alphabet characters only, of length (4n+2)/3, never ending in "=" |
| Viewer.IdentifierDecodes | client/src/components/Viewer.tsx:107-115 | re-padding and decoding the identifier gives the payload back |
| Viewer.IdentifierRoundTrip | client/src/components/Viewer.tsx:102-113 | for an ASCII id without NUL, the decoded payload splits at NUL into the id, "c" and "mysql" |
| Viewer.ValidConnections | client/src/components/Viewer.tsx:134-136 | keeps exactly the connections with a non-empty identifier and a non-empty name |
| Viewer.ValidConnectionsAppend | client/src/components/Viewer.tsx:134-136 | the filter distributes over concatenation, so relative order is kept |
| Viewer.ValidConnectionsIdempotent | client/src/components/Viewer.tsx:134-136 | filtering twice is filtering once |
| Viewer.ConnectString | client/src/components/Viewer.tsx:43-45 | the connect string starts with "token=" |
| Viewer.ConnectStringIsJoin | client/src/components/Viewer.tsx:44 | it is the four pairs token, GUAC_ID, GUAC_TYPE=c and GUAC_DATA_SOURCE=mysql, written key=value and joined by "&" |
| Viewer.ConnectStringRoundTrip | client/src/components/Viewer.tsx:43-45 | with a token and id free of "&" and "=", parsing the string gives back exactly those four pairs |
| NewDay.TierOptionsMatchServer | client/src/components/NewDay.tsx:13 | the form offers exactly the server's three tiers, in order, and only names the server can size |
| NewDay.AmiName | client/src/components/NewDay.tsx:53-56 | the label of the first catalog entry with the instance's image id, else "Ubuntu 22.04 LTS"; against a listed catalog, always one of the five labels |
| NewDay.LabelInstances | client/src/components/NewDay.tsx:52-58 | one entry per instance, in order, with the instance unchanged and its image's label attached |
| NewDay.LabelInstancesAppend | client/src/components/NewDay.tsx:52-58 | the join distributes over concatenation, so listing order is kept |
| NewDay.LabelsAreCatalogLabels | client/src/components/NewDay.tsx:52-58 | against the server's catalog, every shown label is one of the five catalog labels |
| NewDay.FirstUbuntu | client/src/components/NewDay.tsx:63-65 | the first entry whose lowercased label contains "ubuntu", or none has it |
| NewDay.DefaultAmi | client/src/components/NewDay.tsx:62-69 | a selection in the catalog is kept; otherwise the first Ubuntu entry's id; unchanged when there is none; the result is the old selection or a catalog id |
| NewDay.DefaultAmiIdempotent | client/src/components/NewDay.tsx:62-69 | choosing the default twice changes nothing more |
| NewDay.LacksUbuntu | client/src/components/NewDay.tsx:64 | a label without the letter b does not mention ubuntu in any case |
| NewDay.HasUbuntu | client/src/components/NewDay.tsx:64 | a label starting with "Ubuntu" mentions ubuntu |
| NewDay.FirstUbuntuAt | client/src/components/NewDay.tsx:63-65 | the first-Ubuntu position is determined by its description |
| NewDay.LabelsFirstUbuntu | client/src/components/NewDay.tsx:63-65 | of the five catalog labels the first mentioning ubuntu is the third |
| NewDay.DefaultOfLabelledCatalog | client/src/components/NewDay.tsx:62-69 | a catalog starting with the first three labels defaults an outside selection to its third entry |
| NewDay.DefaultIsUbuntuLts | client/src/components/NewDay.tsx:62-69 | with every query answered, an outside selection defaults to the "Ubuntu 22.04 LTS" image |
| NewDay.FindInstance | client/src/components/NewDay.tsx:85 | the first listed instance with the selected id, or none has it |
| NewDay.SelectionEffect | client/src/components/NewDay.tsx:75-93 | no (or empty) selection clears all five fields; a listed selection fills them from the first instance with that id; an unlisted id changes nothing |
| NewDay.SelectionIdempotent | client/src/components/NewDay.tsx:75-93 | running the effect again changes nothing |
| NewDay.FormOf | client/src/components/NewDay.tsx:86-92 | selecting a listed instance fills the key name with its name, the tier field with its machine type and the image with its image id (empty when absent), and empties subnet and security group |
| NewDay.FilledFormLaunch | client/src/components/NewDay.tsx:86-92 | a form filled from a listed instance always has a tier field, so its fields satisfy the button's enabling test exactly when the instance has a non-empty image id; selecting that instance hides the launch button, so nothing launches from it |
| NewDay.MachineTypeIsNotATier | client/src/components/NewDay.tsx:309-314 | no t3-family machine type is a tier option |
| NewDay.FilledTypeIsNotATier | client/src/components/NewDay.tsx:89 | a filled form's tier field holds the machine type, which matches none of the tier options |
| NewDay.LaunchEnabled | client/src/components/NewDay.tsx:317-320 | a launch can start only with no instance selected (the button is rendered only outside edit mode, line 158) and with an image and a tier chosen |
| NewDay.EnabledIffTierChosen | client/src/components/NewDay.tsx:317-320 | with the tier picked from the options or the placeholder, launch is possible exactly when no instance is selected and an image and a real tier are chosen |
| NewDay.ClearedCannotLaunch | client/src/components/NewDay.tsx:76-82 | after the selection is cleared (absent or empty), the cleared form cannot launch |
| NewDay.NoLaunchAfterSelection | client/src/components/NewDay.tsx:75-93 | right after any change of selection nothing can launch: a cleared form fails the enabling test and a selected instance hides the button |
| NewDay.EnabledLaunchIsSized | client/src/components/NewDay.tsx:96-100 | an enabled launch with a chosen tier reaches the provider with the selected image, the name tag and that tier's machine size |

## Left out

- Provider and database I/O is not modelled. The EC2 describe, run and authorise calls and the MySQL pool and SQL text are replaced by their answers (`Provisioning.Responses`). The gateway writes are two opaque success flags. The database schema and a concurrent provisioning race on the same name are not modelled.
- The registry queries behind the catalog are not in the provisioning trace. The catalog enters as one answer.
- Timing is not modelled: the 10-second sleep between polls, notification timers, `Date.now` ids and page reloads are scheduling concerns.
- `crypto.getRandomValues` is a parameter. No claim is made about the distribution of the bytes.
- `Date` parsing of creation dates is not modelled: a creation time is an integer.
- Images without an id or a creation date are not modelled. Every registry image carries both.
- `deleteInstance`, `startInstance` and `stopInstance` are not modelled. They issue unordered external effects and have no logic to prove.
- The route layer, including the unawaited `addInstance` call in `server/src/routes/ec2.ts`, is not modelled. Neither is the error text of a failed step: any failure is the single `Failed` outcome, as the source's `{}` is.
- The group id of the ingress call is passed through as an option. What the provider does with an absent group id is part of its answer.
- Viewer's Guacamole client, mouse and keyboard wiring, WebSocket tunnel, display scaling, `window.open` and connection fetching are not modelled. They are UI and network.
- React rendering, styles, TopMenu, Login, Router, ProtectedRoute, the Vite config and the type-only `Instance` model are not modelled.
- Viewer.IdentifierPayload: requires an ASCII id. `Buffer.from(s, "ascii")` on other characters is not modelled.
- Viewer.EncodeIdentifier: requires an ASCII id, for the same reason.
- Text.Lower: maps only the ASCII letters. Unicode case mapping is not modelled.
- Fleet.ParseTier: a tier name that is an inherited property name of a JavaScript object is not modelled.
- Password.GeneratePassword: takes an integer length. Non-integer `number` lengths are not modelled. Nor is the exception `crypto.getRandomValues` throws for more than 65536 bytes (string.ts:12-14): the bytes are a parameter, so any length yields a password here.
- NewDay.LabelInstances: takes the server's listed instances. A null entry from a reservation without an instance list is not modelled, and neither is a non-array server error body.
- The parameter insert is modelled as the six name/value pairs it writes. The SQL that attaches them to the connection row is not.

=== FILE: base64.dfy ===
/**
  The base 64 encoding of section 4 of RFC 4648 (alphabet `A-Z a-z 0-9 + /`,
  `=` padding as described in section 3.2), together with the decoder that
  inverts it, the removal of trailing padding and its restoration.

  Octets are first regrouped into 6-bit values ("sextets"), most significant
  bits first; each sextet is then written as one alphabet character.
 */
module Base64 {
  import opened Wrappers
  import opened Bytes

  type sextet = x: int | 0 <= x < 64

  /** Table 1 of RFC 4648: the character for a 6-bit value. */
  function CharOf(v: sextet): char {
    if v < 26 then ('A' as int + v) as char
    else if v < 52 then ('a' as int + (v - 26)) as char
    else if v < 62 then ('0' as int + (v - 52)) as char
    else if v == 62 then '+'
    else '/'
  }

  /** Membership in the 64-character alphabet (the pad character is not a member). */
  predicate IsAlphabetChar(c: char) {
    ('A' <= c <= 'Z') || ('a' <= c <= 'z') || ('0' <= c <= '9') || c == '+' || c == '/'
  }

  /** The 6-bit value of an alphabet character. */
  function ValueOf(c: char): (v: sextet)
    requires IsAlphabetChar(c)
    ensures CharOf(v) == c
  {
    if 'A' <= c <= 'Z' then c as int - 'A' as int
    else if 'a' <= c <= 'z' then c as int - 'a' as int + 26
    else if '0' <= c <= '9' then c as int - '0' as int + 52
    else if c == '+' then 62
    else 63
  }

  /** Every value has an alphabet character, and reading it back gives the value. */
  lemma ValueOfCharOf(v: sextet)
    ensures IsAlphabetChar(CharOf(v)) && ValueOf(CharOf(v)) == v
  {
  }

  /** The sextets of `bs`: four per full 24-bit group, then three or two for a final 16- or 8-bit quantum. */
  function Sextets(bs: seq<byte>): (vs: seq<sextet>)
    ensures |vs| == (4 * |bs| + 2) / 3
    decreases |bs|
  {
    if |bs| == 0 then []
    else if |bs| == 1 then [bs[0] / 4, (bs[0] % 4) * 16]
    else if |bs| == 2 then [bs[0] / 4, (bs[0] % 4) * 16 + bs[1] / 16, (bs[1] % 16) * 4]
    else [bs[0] / 4, (bs[0] % 4) * 16 + bs[1] / 16, (bs[1] % 16) * 4 + bs[2] / 64, bs[2] % 64]
         + Sextets(bs[3..])
  }

  /** Regroups sextets into octets, the inverse of `Sextets`; a lone trailing sextet carries no octet. */
  function Octets(vs: seq<sextet>): seq<byte>
    decreases |vs|
  {
    if |vs| < 2 then []
    else
      var v0, v1 := vs[0] as int, vs[1] as int;
      if |vs| == 2 then [v0 * 4 + v1 / 16]
      else
        var v2 := vs[2] as int;
        if |vs| == 3 then [v0 * 4 + v1 / 16, (v1 % 16) * 16 + v2 / 4]
        else [v0 * 4 + v1 / 16, (v1 % 16) * 16 + v2 / 4, (v2 % 4) * 64 + vs[3]] + Octets(vs[4..])
  }

  /** Splitting `x * 16 + y` back into `x` and `y`. */
  lemma DivMod16(x: int, y: int)
    requires 0 <= x && 0 <= y < 16
    ensures (x * 16 + y) / 16 == x && (x * 16 + y) % 16 == y
  {
  }

  /** Splitting `x * 4 + y` back into `x` and `y`. */
  lemma DivMod4(x: int, y: int)
    requires 0 <= x && 0 <= y < 4
    ensures (x * 4 + y) / 4 == x && (x * 4 + y) % 4 == y
  {
  }

  /** Regrouping the sextets of some octets gives the octets back. */
  lemma {:induction false} OctetsSextets(bs: seq<byte>)
    ensures Octets(Sextets(bs)) == bs
    decreases |bs|
  {
    if |bs| == 1 {
      DivMod16(bs[0] % 4, 0);
    } else if |bs| == 2 {
      DivMod16(bs[0] % 4, bs[1] / 16);
      DivMod4(bs[1] % 16, 0);
    } else if |bs| >= 3 {
      var a, b, c := bs[0], bs[1], bs[2];
      DivMod16(a % 4, b / 16);
      DivMod4(b % 16, c / 64);
      var vs := Sextets(bs);
      var rest := Sextets(bs[3..]);
      assert vs == [a / 4, (a % 4) * 16 + b / 16, (b % 16) * 4 + c / 64, c % 64] + rest;
      assert vs[4..] == rest;
      OctetsSextets(bs[3..]);
      assert bs == [a, b, c] + bs[3..];
    }
  }

  lemma ValueOfCharOfAll(vs: seq<sextet>)
    ensures forall i :: 0 <= i < |vs| ==> IsAlphabetChar(CharOf(vs[i]))
  {
    forall i | 0 <= i < |vs| {
      ValueOfCharOf(vs[i]);
    }
  }

  /** Writes each sextet as its alphabet character. */
  function Chars(vs: seq<sextet>): (s: string)
    ensures |s| == |vs|
    ensures forall i :: 0 <= i < |s| ==> IsAlphabetChar(s[i])
  {
    ValueOfCharOfAll(vs);
    seq(|vs|, i requires 0 <= i < |vs| => CharOf(vs[i]))
  }

  /** Reads each alphabet character as its sextet. */
  function Values(s: string): (vs: seq<sextet>)
    requires forall i :: 0 <= i < |s| ==> IsAlphabetChar(s[i])
    ensures |vs| == |s|
  {
    seq(|s|, i requires 0 <= i < |s| => ValueOf(s[i]))
  }

  /** Reading back the characters of some sextets gives the sextets. */
  lemma ValuesChars(vs: seq<sextet>)
    ensures Values(Chars(vs)) == vs
  {
    var r := Values(Chars(vs));
    forall i | 0 <= i < |vs|
      ensures r[i] == vs[i]
    {
      ValueOfCharOf(vs[i]);
    }
  }

  /** The encoding with the final quantum written without its `=` characters. */
  function EncodeUnpadded(bs: seq<byte>): (r: string)
    ensures |r| == (4 * |bs| + 2) / 3
    ensures forall i :: 0 <= i < |r| ==> IsAlphabetChar(r[i])
  {
    Chars(Sextets(bs))
  }

  /** `n` copies of the pad character. */
  function PadChars(n: nat): (r: string)
    ensures |r| == n
    ensures forall i :: 0 <= i < n ==> r[i] == '='
  {
    seq(n, i => '=')
  }

  /** Number of `=` characters that complete a string of length `n` to a multiple of four. */
  function PadCount(n: nat): nat {
    (4 - n % 4) % 4
  }

  /** Restores the padding that makes the length a multiple of four. */
  function Pad(s: string): (r: string)
    ensures |r| % 4 == 0
  {
    s + PadChars(PadCount(|s|))
  }

  /** `Buffer.prototype.toString("base64")`: the encoding, padded with `=` to a multiple of four characters. */
  function Encode(bs: seq<byte>): (r: string)
    ensures |r| == 4 * ((|bs| + 2) / 3)
    ensures forall i :: 0 <= i < |r| ==> IsAlphabetChar(r[i]) || r[i] == '='
  {
    Pad(EncodeUnpadded(bs))
  }

  /** `.replace(/=+$/, "")`: removes every trailing `=`. */
  function StripPadding(s: string): (r: string)
    ensures |r| <= |s| && r == s[..|r|]
    ensures forall i :: |r| <= i < |s| ==> s[i] == '='
    ensures |r| == 0 || r[|r| - 1] != '='
    decreases |s|
  {
    if |s| > 0 && s[|s| - 1] == '=' then StripPadding(s[..|s| - 1]) else s
  }

  /** How many pad characters (at most two) end `s`. */
  function TrailingPads(s: string): nat {
    if |s| >= 2 && s[|s| - 1] == '=' && s[|s| - 2] == '=' then 2
    else if |s| >= 1 && s[|s| - 1] == '=' then 1
    else 0
  }

  /** Decodes a padded encoding; `None` for a string that is not one. */
  function Decode(s: string): Option<seq<byte>> {
    if |s| % 4 != 0 then None
    else
      var body := s[..|s| - TrailingPads(s)];
      if forall i :: 0 <= i < |body| ==> IsAlphabetChar(body[i]) then Some(Octets(Values(body)))
      else None
  }

  /** Stripping `=` from an alphabet string followed by pad characters removes exactly the pad. */
  lemma {:induction false} StripPaddingOfPadded(u: string, n: nat)
    requires forall i :: 0 <= i < |u| ==> IsAlphabetChar(u[i])
    ensures StripPadding(u + PadChars(n)) == u
    decreases n
  {
    if n == 0 {
      assert u + PadChars(0) == u;
    } else {
      var s := u + PadChars(n);
      assert s[|s| - 1] == '=';
      assert s[..|s| - 1] == u + PadChars(n - 1);
      StripPaddingOfPadded(u, n - 1);
    }
  }

  /** Removing all trailing `=` from a padded encoding leaves the unpadded encoding. */
  lemma StripEncode(bs: seq<byte>)
    ensures StripPadding(Encode(bs)) == EncodeUnpadded(bs)
  {
    var u := EncodeUnpadded(bs);
    StripPaddingOfPadded(u, PadCount(|u|));
  }

  /** The decoder recognises and removes exactly the pad of a padded alphabet string. */
  lemma TrailingPadsOfPadded(u: string)
    requires forall i :: 0 <= i < |u| ==> IsAlphabetChar(u[i])
    requires |u| % 4 != 1
    ensures var p := Pad(u); p[..|p| - TrailingPads(p)] == u
  {
    var p := Pad(u);
    var n := PadCount(|u|);
    assert p == u + PadChars(n);
    if n == 0 {
      assert p == u;
      if |u| > 0 {
        assert IsAlphabetChar(u[|u| - 1]);
      }
      assert TrailingPads(p) == 0;
    } else if n == 1 {
      assert p[|p| - 1] == '=';
      assert p[|p| - 2] == u[|u| - 1];
      assert IsAlphabetChar(u[|u| - 1]);
      assert TrailingPads(p) == 1;
    } else {
      assert n == 2;
      assert p[|p| - 1] == '=' && p[|p| - 2] == '=';
      assert TrailingPads(p) == 2;
    }
    assert p[..|u|] == u;
  }

  /** Decoding inverts the padded encoding of RFC 4648 section 4. */
  lemma DecodeEncode(bs: seq<byte>)
    ensures Decode(Encode(bs)) == Some(bs)
  {
    var vs := Sextets(bs);
    var u := EncodeUnpadded(bs);
    TrailingPadsOfPadded(u);
    ValuesChars(vs);
    OctetsSextets(bs);
  }
}

=== FILE: bytes.dfy ===
/** Octets and the two string-to-bytes conversions the system uses (Node's `Buffer.from`). */
module Bytes {
  import opened Text

  type byte = x: int | 0 <= x < 256

  /** `Buffer.from(s, "ascii")` for a string that is ASCII. */
  function AsciiBytes(s: string): (r: seq<byte>)
    requires IsAscii(s)
    ensures |r| == |s|
    ensures forall i :: 0 <= i < |r| ==> r[i] < 128
  {
    seq(|s|, i requires 0 <= i < |s| => s[i] as int)
  }

  /** Reads 7-bit octets back as characters. */
  function AsciiString(bs: seq<byte>): string
    requires forall i :: 0 <= i < |bs| ==> bs[i] < 128
  {
    seq(|bs|, i requires 0 <= i < |bs| => bs[i] as char)
  }

  /** Reading back the octets of an ASCII string gives the string. */
  lemma AsciiRoundTrip(s: string)
    requires IsAscii(s)
    ensures AsciiString(AsciiBytes(s)) == s
  {
    var r := AsciiString(AsciiBytes(s));
    assert forall i :: 0 <= i < |s| ==> r[i] == s[i];
  }

  /** The UTF-8 encoding of one Unicode scalar value. */
  function Utf8Char(c: char): (r: seq<byte>)
    ensures 1 <= |r| <= 4
    ensures c as int < 128 <==> r == [c as int]
  {
    var n := c as int;
    if n < 0x80 then [n]
    else if n < 0x800 then [0xC0 + n / 64, 0x80 + n % 64]
    else if n < 0x10000 then [0xE0 + n / 4096, 0x80 + (n / 64) % 64, 0x80 + n % 64]
    else [0xF0 + n / 262144, 0x80 + (n / 4096) % 64, 0x80 + (n / 64) % 64, 0x80 + n % 64]
  }

  /** `Buffer.from(s)`: the UTF-8 encoding of `s`. */
  function Utf8(s: string): seq<byte>
    decreases |s|
  {
    if |s| == 0 then [] else Utf8Char(s[0]) + Utf8(s[1..])
  }

  /** On an ASCII string UTF-8 is the identity on code points. */
  lemma {:induction false} Utf8OfAscii(s: string)
    requires IsAscii(s)
    ensures Utf8(s) == AsciiBytes(s)
    decreases |s|
  {
    if |s| > 0 {
      assert IsAscii(s[1..]);
      Utf8OfAscii(s[1..]);
      assert AsciiBytes(s) == [s[0] as int] + AsciiBytes(s[1..]);
    }
  }
}

=== FILE: catalog.dfy ===
/**
  The image catalog: for each of five fixed registry queries, the newest
  matching image relabelled for display, with queries that match nothing
  dropped.
 */
module Catalog {
  import opened Wrappers

  /** One registry query: image owner, name pattern, and the name shown for its result. */
  datatype Query = Query(owner: string, namePattern: string, shownAs: string)

  /** The five queries of `listAmis`, in order. */
  const Queries: seq<Query> := [
    Query("amazon", "amzn2-ami-hvm-*-x86_64-gp2", "Amazon Linux 2"),
    Query("aws-marketplace", "*GUI Desktop*", "Amazon Linux 2 GUI Desktop (RDP)"),
    Query("099720109477", "ubuntu/images/hvm-ssd/ubuntu-jammy-22.04-amd64-server-*", "Ubuntu 22.04 LTS"),
    Query("aws-marketplace", "*Ubuntu Desktop*RDP*", "Ubuntu Desktop (RDP)"),
    Query("amazon", "Windows_Server-2022-English-Full-Base-*", "Windows Server 2022")
  ]

  /** The labels of the five queries, in order. */
  const Labels: seq<string> := ["Amazon Linux 2", "Amazon Linux 2 GUI Desktop (RDP)", "Ubuntu 22.04 LTS", "Ubuntu Desktop (RDP)", "Windows Server 2022"]

  /** An image as the registry reports it; the creation date is a timestamp. */
  datatype RegistryImage = RegistryImage(imageId: string, creationTime: int)

  /** A catalog entry: provider image id and display label. */
  datatype Ami = Ami(id: string, name: string)

  /**
    `k` is where a stable descending sort by creation time puts its first
    element: the newest image, and the earliest among equally new ones.
   */
  ghost predicate IsFirstNewest(images: seq<RegistryImage>, k: int) {
    && 0 <= k < |images|
    && (forall j :: 0 <= j < |images| ==> images[j].creationTime <= images[k].creationTime)
    && (forall j :: 0 <= j < k ==> images[j].creationTime < images[k].creationTime)
  }

  /** The position of the image `images.sort(newest first)[0]` is, or `None` when there are none. */
  function NewestIndex(images: seq<RegistryImage>): (r: Option<nat>)
    ensures r.None? <==> |images| == 0
    ensures r.Some? ==> IsFirstNewest(images, r.value)
    decreases |images|
  {
    if |images| == 0 then None
    else
      match NewestIndex(images[1..])
      case None => Some(0)
      case Some(k) =>
        if images[0].creationTime >= images[k + 1].creationTime then Some(0) else Some(k + 1)
  }

  /** There is only one first-newest position, so `NewestIndex` is determined by its contract. */
  lemma FirstNewestUnique(images: seq<RegistryImage>, j: int)
    requires IsFirstNewest(images, j)
    ensures forall i :: 0 <= i < |images| && i != j ==> !IsFirstNewest(images, i)
  {
    forall i | 0 <= i < |images| && i != j
      ensures !IsFirstNewest(images, i)
    {
      if i < j {
        assert images[i].creationTime < images[j].creationTime;
      } else {
        assert images[i].creationTime <= images[j].creationTime;
      }
    }
  }

  /** `fetchLatestAmi`: the newest image of one query's answer, labelled with the query's display name. */
  function FetchLatestAmi(q: Query, images: seq<RegistryImage>): (r: Option<Ami>)
    ensures r.None? <==> |images| == 0
    ensures r.Some? ==> r.value.name == q.shownAs
    ensures r.Some? ==> exists k :: IsFirstNewest(images, k) && images[k].imageId == r.value.id
  {
    match NewestIndex(images)
    case Some(k) => Some(Ami(images[k].imageId, q.shownAs))
    case None => None
  }

  /** `filter(a => a !== null)`: the present entries, in order. */
  function Present<T>(xs: seq<Option<T>>): (r: seq<T>)
    ensures |r| <= |xs|
    ensures forall x :: x in r ==> Some(x) in xs
    ensures (forall i :: 0 <= i < |xs| ==> xs[i].Some?) ==> |r| == |xs|
    decreases |xs|
  {
    if |xs| == 0 then []
    else match xs[0]
      case Some(x) => [x] + Present(xs[1..])
      case None => Present(xs[1..])
  }

  /** Dropping absent entries distributes over concatenation, so order is kept. */
  lemma {:induction false} PresentAppend<T>(a: seq<Option<T>>, b: seq<Option<T>>)
    ensures Present(a + b) == Present(a) + Present(b)
    decreases |a|
  {
    if |a| == 0 {
      assert a + b == b;
    } else {
      assert (a + b)[0] == a[0];
      assert (a + b)[1..] == a[1..] + b;
      PresentAppend(a[1..], b);
    }
  }

  /**
    Each query's result next to its answer, in query order: nothing for a
    query that matched no image, otherwise the newest image of that query
    (the earliest of equally new ones) under the query's label.
   */
  function Fetched(responses: seq<seq<RegistryImage>>): (r: seq<Option<Ami>>)
    requires |responses| == |Queries|
    ensures |r| == |Queries|
    ensures forall i :: 0 <= i < |Queries| ==> (r[i].None? <==> |responses[i]| == 0)
    ensures forall i :: 0 <= i < |Queries| && r[i].Some? ==>
              r[i].value.name == Labels[i]
              && exists k :: IsFirstNewest(responses[i], k) && responses[i][k].imageId == r[i].value.id
  {
    QueryLabels();
    seq(|Queries|, i requires 0 <= i < |Queries| => FetchLatestAmi(Queries[i], responses[i]))
  }

  /** The registry's answers when every query was answered. */
  function Answers(responses: seq<Option<seq<RegistryImage>>>): (answers: seq<seq<RegistryImage>>)
    requires forall i :: 0 <= i < |responses| ==> responses[i].Some?
    ensures |answers| == |responses| && forall i :: 0 <= i < |responses| ==> answers[i] == responses[i].value
  {
    seq(|responses|, i requires 0 <= i < |responses| => responses[i].value)
  }

  /**
    `listAmis`: the answers to the five queries (`None` for a query whose
    registry call failed). All queries run under one `Promise.all`, so a
    single failure fails the whole catalog.
   */
  function ListAmis(responses: seq<Option<seq<RegistryImage>>>): (r: Option<seq<Ami>>)
    requires |responses| == |Queries|
    ensures r.Some? <==> forall i :: 0 <= i < |responses| ==> responses[i].Some?
    ensures r.Some? ==> |r.value| <= |Queries|
    ensures r.Some? ==> forall a :: a in r.value ==> a.name in Labels
  {
    if forall i :: 0 <= i < |responses| ==> responses[i].Some? then
      var entries := Fetched(Answers(responses));
      QueryLabels();
      PresentNames(entries, Labels);
      Some(Present(entries))
    else None
  }

  /** Entries named position by position after `names` keep, once the absent ones are dropped, names from `names`. */
  lemma PresentNames(entries: seq<Option<Ami>>, names: seq<string>)
    requires |entries| == |names|
    requires forall i :: 0 <= i < |entries| && entries[i].Some? ==> entries[i].value.name == names[i]
    ensures forall a :: a in Present(entries) ==> a.name in names
  {
    forall a | a in Present(entries) ensures a.name in names {
      var i :| 0 <= i < |entries| && entries[i] == Some(a);
    }
  }

  /** When every query matches some image, the catalog lists the five labels in query order. */
  lemma CatalogComplete(responses: seq<Option<seq<RegistryImage>>>)
    requires |responses| == |Queries|
    requires forall i :: 0 <= i < |responses| ==> responses[i].Some? && |responses[i].value| > 0
    ensures ListAmis(responses).Some?
    ensures var c := ListAmis(responses).value;
            |c| == |Queries| && forall i :: 0 <= i < |c| ==> c[i].name == Labels[i]
  {
    var entries := Fetched(Answers(responses));
    assert forall i :: 0 <= i < |entries| ==> entries[i].Some? && entries[i].value.name == Queries[i].shownAs;
    PresentAllSome(entries);
    var c := Present(entries);
    assert c == ListAmis(responses).value;
    QueryLabels();
  }

  /** `Labels` lists the display names of `Queries`. */
  lemma QueryLabels()
    ensures |Labels| == |Queries|
    ensures forall i :: 0 <= i < |Queries| ==> Queries[i].shownAs == Labels[i]
  {
  }

  /** With no absent entry, `Present` keeps every value in place. */
  lemma {:induction false} PresentAllSome<T>(xs: seq<Option<T>>)
    requires forall i :: 0 <= i < |xs| ==> xs[i].Some?
    ensures |Present(xs)| == |xs| && forall i :: 0 <= i < |xs| ==> Present(xs)[i] == xs[i].value
    decreases |xs|
  {
    if |xs| > 0 {
      PresentAllSome(xs[1..]);
    }
  }

  /** The positions of the present entries at or after `from`, in increasing order. */
  function SomePositions<T>(xs: seq<Option<T>>, from: nat): (ps: seq<nat>)
    requires from <= |xs|
    ensures forall j :: 0 <= j < |ps| ==> from <= ps[j] < |xs| && xs[ps[j]].Some?
    ensures forall i :: from <= i < |xs| && xs[i].Some? ==> i in ps
    ensures forall j, k :: 0 <= j < k < |ps| ==> ps[j] < ps[k]
    decreases |xs| - from
  {
    if from == |xs| then []
    else if xs[from].Some? then [from] + SomePositions(xs, from + 1)
    else SomePositions(xs, from + 1)
  }

  /** The values at positions `ps` of `xs`, in the order of `ps`. */
  function ValuesAt<T>(xs: seq<Option<T>>, ps: seq<nat>): (vs: seq<T>)
    requires forall j :: 0 <= j < |ps| ==> ps[j] < |xs| && xs[ps[j]].Some?
    ensures |vs| == |ps| && forall j :: 0 <= j < |ps| ==> vs[j] == xs[ps[j]].value
    decreases |ps|
  {
    if |ps| == 0 then [] else [xs[ps[0]].value] + ValuesAt(xs, ps[1..])
  }

  /** Dropping the absent entries after `from` keeps the values at the present positions after `from`. */
  lemma {:induction false} PresentAtPositions<T>(xs: seq<Option<T>>, from: nat)
    requires from <= |xs|
    ensures Present(xs[from..]) == ValuesAt(xs, SomePositions(xs, from))
    decreases |xs| - from
  {
    if from < |xs| {
      PresentAtPositions(xs, from + 1);
      assert xs[from..][0] == xs[from];
      assert xs[from..][1..] == xs[from + 1..];
      if xs[from].Some? {
        var ps := SomePositions(xs, from);
        assert ps == [from] + SomePositions(xs, from + 1);
        assert ps[1..] == SomePositions(xs, from + 1);
      }
    }
  }

  /**
    When every query is answered, the catalog lists, in query order, the
    newest image of exactly those queries that matched some image: its j-th
    entry comes from the j-th matching query.
   */
  lemma CatalogOrder(responses: seq<Option<seq<RegistryImage>>>)
    requires |responses| == |Queries|
    requires forall i :: 0 <= i < |responses| ==> responses[i].Some?
    ensures ListAmis(responses).Some?
    ensures var c := ListAmis(responses).value;
            var idx := SomePositions(Fetched(Answers(responses)), 0);
            && |c| == |idx|
            && (forall j, k :: 0 <= j < k < |idx| ==> idx[j] < idx[k])
            && (forall i :: 0 <= i < |Queries| ==> (i in idx <==> |responses[i].value| > 0))
            && forall j :: 0 <= j < |c| ==>
                 idx[j] < |Queries| && c[j] == FetchLatestAmi(Queries[idx[j]], responses[idx[j]].value).value
  {
    var answers := Answers(responses);
    FetchedAnswers(answers);
    var entries := Fetched(answers);
    PresentAtPositions(entries, 0);
    assert entries[0..] == entries;
  }

  /** `Fetched` applies `fetchLatestAmi` query by query. */
  lemma FetchedAnswers(responses: seq<seq<RegistryImage>>)
    requires |responses| == |Queries|
    ensures forall i :: 0 <= i < |Queries| ==> Fetched(responses)[i] == FetchLatestAmi(Queries[i], responses[i])
  {
  }

  /** The label of the catalog entry with id `amiId`, if any (`amis.find(x => x.id === amiId)?.name`). */
  function FindLabel(amis: seq<Ami>, amiId: string): (found: Option<string>)
    ensures found.Some? <==> exists k :: 0 <= k < |amis| && amis[k].id == amiId
    ensures found.Some? ==> exists k :: 0 <= k < |amis| && amis[k].id == amiId && amis[k].name == found.value
                              && forall j :: 0 <= j < k ==> amis[j].id != amiId
    decreases |amis|
  {
    if |amis| == 0 then None
    else if amis[0].id == amiId then Some(amis[0].name)
    else
      var rest := FindLabel(amis[1..], amiId);
      assert rest.Some? ==> exists k :: 1 <= k < |amis| && amis[k].id == amiId && amis[k].name == rest.value
                              && forall j :: 0 <= j < k ==> amis[j].id != amiId by {
        if rest.Some? {
          var k :| 0 <= k < |amis[1..]| && amis[1..][k].id == amiId && amis[1..][k].name == rest.value
                   && forall j :: 0 <= j < k ==> amis[1..][j].id != amiId;
          assert amis[k + 1] == amis[1..][k];
          assert forall j :: 1 <= j < k + 1 ==> amis[j] == amis[1..][j - 1];
        }
      }
      assert (exists k :: 1 <= k < |amis| && amis[k].id == amiId) ==> rest.Some? by {
        if k :| 1 <= k < |amis| && amis[k].id == amiId {
          assert amis[1..][k - 1].id == amiId;
        }
      }
      rest
  }
}

=== FILE: fleet.dfy ===
/**
  The fleet inventory: how the server turns the provider's description of its
  instances into the list the browser shows (canonical `t3` machine type,
  display tier, name), and the fixed tier -> machine size table used at launch.
 */
module Fleet {
  import opened Wrappers
  import opened Text

  /** The three sizing tiers. */
  datatype Tier = Basic | Standard | Premium

  function TierName(t: Tier): string {
    match t
    case Basic => "Basic"
    case Standard => "Standard"
    case Premium => "Premium"
  }

  /** The tier names in display order (`pricingTiers` on the server, `tiers` in the browser). */
  const TierNames: seq<string> := ["Basic", "Standard", "Premium"]

  /** Looking a tier up by name, as indexing `tierToSize` with a request field does. */
  function ParseTier(s: string): (r: Option<Tier>)
    ensures r.Some? <==> s in TierNames
    ensures r.Some? ==> TierName(r.value) == s
  {
    if s == "Basic" then Some(Basic)
    else if s == "Standard" then Some(Standard)
    else if s == "Premium" then Some(Premium)
    else None
  }

  /** Tier names and `ParseTier` are inverse, and the names are exactly the three listed. */
  lemma TierNameRoundTrip(t: Tier)
    ensures ParseTier(TierName(t)) == Some(t)
    ensures TierName(t) in TierNames
  {
  }

  /**
    `tierToSize`: the machine type launched for each tier. Every size is of
    the `t3` family as the inventory reads it (`t3a` starts with "t3"), so a
    launched machine is listed under its own type (`TierSizeRoundTrip` adds
    that it displays as its own tier).
   */
  function SizeForTier(t: Tier): (size: string)
    ensures StartsWith(size, "t3") && NormaliseType(Some(size)) == size
  {
    match t
    case Basic => "t3.micro"
    case Standard => "t3.medium"
    case Premium => "t3a.large"
  }

  /** Text JavaScript interpolates for an absent value. */
  const Undefined: string := "undefined"

  /**
    The displayed machine type: a raw type starting with "t3" is kept; any
    other (or an absent one) becomes "t3." followed by its second dot field,
    which is the text "undefined" when the type has no dot or is absent.
   */
  function NormaliseType(instanceType: Option<string>): (r: string)
    ensures StartsWith(r, "t3")
    ensures instanceType.Some? && StartsWith(instanceType.value, "t3") ==> r == instanceType.value
    ensures !(instanceType.Some? && StartsWith(instanceType.value, "t3")) ==>
              StartsWith(r, "t3.") && '.' !in r[3..]
  {
    match instanceType
    case Some(s) =>
      if StartsWith(s, "t3") then s
      else "t3." + Field(s, '.', 1).GetOr(Undefined)
    case None => "t3." + Undefined
  }

  /** Size suffixes that display as Basic. */
  const BasicSuffixes: set<string> := {"nano", "micro", "small"}
  /** Size suffixes that display as Premium. */
  const PremiumSuffixes: set<string> := {"large", "xlarge", "2xlarge", "4xlarge", "8xlarge"}

  /** The tier switch over the size suffix; anything unlisted, or no suffix at all, is Standard. */
  function TierOfSuffix(suffix: Option<string>): (t: Tier)
    ensures t == Basic <==> suffix.Some? && suffix.value in BasicSuffixes
    ensures t == Premium <==> suffix.Some? && suffix.value in PremiumSuffixes
    ensures t == Standard <==> !(suffix.Some? && (suffix.value in BasicSuffixes || suffix.value in PremiumSuffixes))
  {
    match suffix
    case Some(s) =>
      if s == "nano" || s == "micro" || s == "small" then Basic
      else if s == "medium" then Standard
      else if s == "large" || s == "xlarge" || s == "2xlarge" || s == "4xlarge" || s == "8xlarge" then Premium
      else Standard
    case None => Standard
  }

  /** The display tier of a (normalised) machine type: the switch over its second dot field. */
  function TierOfType(instanceType: string): Tier {
    TierOfSuffix(Field(instanceType, '.', 1))
  }

  /** The second dot field of "<family>.<size>" for dot-free parts. */
  lemma FieldOfSize(family: string, size: string)
    requires '.' !in family && '.' !in size
    ensures Field(family + "." + size, '.', 1) == Some(size)
  {
    assert family + "." + size == Join([family, size], '.');
    SplitJoin([family, size], '.');
  }

  /**
    Normalisation never changes the derived tier: the tier of the displayed
    type is the switch applied to the raw type's own size suffix.
   */
  lemma NormalisePreservesTier(instanceType: Option<string>)
    ensures TierOfType(NormaliseType(instanceType)) ==
            TierOfSuffix(if instanceType.Some? then Field(instanceType.value, '.', 1) else None)
  {
    match instanceType
    case None =>
      assert "t3." + Undefined == "t3" + "." + Undefined;
      FieldOfSize("t3", Undefined);
    case Some(s) =>
      if !StartsWith(s, "t3") {
        var fields := Split(s, '.');
        var suffix := Field(s, '.', 1).GetOr(Undefined);
        assert '.' !in suffix by {
          if 1 < |fields| {
            assert suffix == fields[1];
          }
        }
        assert "t3." + suffix == "t3" + "." + suffix;
        FieldOfSize("t3", suffix);
      }
  }

  /**
    A type outside the t3 family shows as "t3." followed by its size, the
    second dot field: "m5.large" and "m5.large.x" both show as "t3.large".
   */
  lemma {:induction false} NormaliseOtherFamily(family: string, size: string, rest: string)
    requires '.' !in family && '.' !in size && !StartsWith(family, "t3")
    requires rest == [] || rest[0] == '.'
    ensures NormaliseType(Some(family + "." + size + rest)) == "t3." + size
  {
    var s := family + "." + size + rest;
    assert !StartsWith(s, "t3") by {
      if |family| >= 2 {
        assert s[..2] == family[..2];
      } else if |family| == 1 {
        assert s[1] == '.';
      } else {
        assert s[0] == '.';
      }
    }
    if rest == [] {
      assert s == family + "." + size;
      FieldOfSize(family, size);
    } else {
      var more := rest[1..];
      assert s == family + ['.'] + (size + ['.'] + more);
      SplitCons(size, '.', more);
      SplitCons(family, '.', size + ['.'] + more);
    }
  }

  /** A type outside the t3 family with no dot, or no type at all, shows as "t3.undefined". */
  lemma NormaliseWithoutSize(instanceType: Option<string>)
    requires instanceType.Some? ==> '.' !in instanceType.value && !StartsWith(instanceType.value, "t3")
    ensures NormaliseType(instanceType) == "t3.undefined"
  {
    if instanceType.Some? {
      SplitNone(instanceType.value, '.');
    }
  }

  /** Round trip: each tier's launch size normalises to a type that displays as that tier. */
  lemma TierSizeRoundTrip(t: Tier)
    ensures NormaliseType(Some(SizeForTier(t))) == SizeForTier(t)
    ensures TierOfType(NormaliseType(Some(SizeForTier(t)))) == t
  {
    var size := SizeForTier(t);
    assert StartsWith(size, "t3");
    match t
    case Basic =>
      assert size == "t3" + "." + "micro";
      FieldOfSize("t3", "micro");
    case Standard =>
      assert size == "t3" + "." + "medium";
      FieldOfSize("t3", "medium");
    case Premium =>
      assert size == "t3a" + "." + "large";
      FieldOfSize("t3a", "large");
  }

  /** One entry of an instance's tag list. */
  datatype Tag = Tag(key: Option<string>, value: Option<string>)

  /** The first tag whose key is "Name" (`Tags?.find(t => t.Key === "Name")`). */
  function FindNameTag(tags: seq<Tag>): (r: Option<nat>)
    ensures r.Some? ==> r.value < |tags| && tags[r.value].key == Some("Name")
    ensures r.Some? ==> forall j :: 0 <= j < r.value ==> tags[j].key != Some("Name")
    ensures r.None? ==> forall j :: 0 <= j < |tags| ==> tags[j].key != Some("Name")
    decreases |tags|
  {
    if |tags| == 0 then None
    else if tags[0].key == Some("Name") then Some(0)
    else match FindNameTag(tags[1..])
      case Some(k) => Some(k + 1)
      case None => None
  }

  const NoName: string := "(no name)"

  /**
    The listed name: the value of the first "Name" tag when that value is
    present and non-empty, otherwise the placeholder "(no name)".
   */
  function DisplayName(tags: Option<seq<Tag>>): (name: string)
    ensures name != ""
    ensures name != NoName ==>
              tags.Some? && FindNameTag(tags.value).Some? && tags.value[FindNameTag(tags.value).value].value == Some(name)
    ensures (tags.Some? && FindNameTag(tags.value).Some?
             && tags.value[FindNameTag(tags.value).value].value.GetOr("") != "") ==>
              name == tags.value[FindNameTag(tags.value).value].value.value
  {
    var value :=
      match tags
      case Some(ts) => (match FindNameTag(ts) case Some(k) => ts[k].value case None => None)
      case None => None;
    match value
    case Some(v) => if v != "" then v else NoName
    case None => NoName
  }

  /** An instance as the provider describes it. */
  datatype RawInstance = RawInstance(
    instanceId: Option<string>,
    instanceType: Option<string>,
    tags: Option<seq<Tag>>,
    imageId: Option<string>,
    stateName: Option<string>)

  /** An instance as the server lists it. */
  datatype ListedInstance = ListedInstance(
    id: Option<string>,
    name: string,
    instanceType: string,
    tier: Tier,
    amiId: Option<string>,
    state: Option<string>)

  /** One element of the `listInstances` mapping. */
  function ListInstance(i: RawInstance): (r: ListedInstance)
    ensures r.id == i.instanceId && r.amiId == i.imageId && r.state == i.stateName
    ensures r.name == DisplayName(i.tags)
    ensures r.instanceType == NormaliseType(i.instanceType) && StartsWith(r.instanceType, "t3")
    ensures r.tier == TierOfSuffix(if i.instanceType.Some? then Field(i.instanceType.value, '.', 1) else None)
  {
    var t := NormaliseType(i.instanceType);
    NormalisePreservesTier(i.instanceType);
    ListedInstance(i.instanceId, DisplayName(i.tags), t, TierOfType(t), i.imageId, i.stateName)
  }

  /** A provider reservation, whose instance list may be absent. */
  datatype Reservation = Reservation(instances: Option<seq<RawInstance>>)

  /**
    `Reservations.flatMap(r => r.Instances?.map(...))`: the listed instances of
    every reservation in order; a reservation without an instance list
    contributes a single absent entry, since `flatMap` keeps a non-array
    result as one element.
   */
  function FlattenReservations(rs: seq<Reservation>): (r: seq<Option<ListedInstance>>)
    ensures (forall k :: 0 <= k < |rs| ==> rs[k].instances.Some?) ==> forall e :: e in r ==> e.Some?
    ensures forall e :: e in r && e.Some? ==> StartsWith(e.value.instanceType, "t3") && e.value.name != ""
    ensures |rs| == 1 && rs[0].instances.None? ==> r == [None]
    decreases |rs|
  {
    if |rs| == 0 then []
    else
      var head :=
        match rs[0].instances
        case Some(xs) => seq(|xs|, j requires 0 <= j < |xs| => Some(ListInstance(xs[j])))
        case None => [None];
      head + FlattenReservations(rs[1..])
  }

  /** `listInstances`: absent when the provider's answer has no reservation list. */
  function ListInstances(reservations: Option<seq<Reservation>>): (r: Option<seq<Option<ListedInstance>>>)
    ensures r.Some? <==> reservations.Some?
    ensures r.Some? ==> forall e :: e in r.value && e.Some? ==> StartsWith(e.value.instanceType, "t3") && e.value.name != ""
  {
    match reservations
    case Some(rs) => Some(FlattenReservations(rs))
    case None => None
  }

  /** Flattening distributes over concatenation, so reservation order and instance order are kept. */
  lemma {:induction false} FlattenAppend(a: seq<Reservation>, b: seq<Reservation>)
    ensures FlattenReservations(a + b) == FlattenReservations(a) + FlattenReservations(b)
    decreases |a|
  {
    if |a| == 0 {
      assert a + b == b;
    } else {
      assert (a + b)[0] == a[0];
      assert (a + b)[1..] == a[1..] + b;
      FlattenAppend(a[1..], b);
    }
  }

  /** A single reservation with an instance list lists exactly those instances, in order. */
  lemma FlattenOne(xs: seq<RawInstance>)
    ensures var r := FlattenReservations([Reservation(Some(xs))]);
            |r| == |xs| && forall j :: 0 <= j < |xs| ==> r[j] == Some(ListInstance(xs[j]))
  {
    var r := FlattenReservations([Reservation(Some(xs))]);
    assert [Reservation(Some(xs))][1..] == [];
  }
}

=== FILE: newday.dfy ===
/**
  The browser's launch form: the fleet list joined with catalog labels, the
  default image, the form fields that follow the selected instance, the rule
  that enables the launch button, and the body of the launch request.
 */
module NewDay {
  import opened Wrappers
  import opened Text
  import opened Fleet
  import opened Catalog
  import Provisioning

  /** The tier choices the form offers (`tiers`). */
  const TierOptions: seq<string> := ["Basic", "Standard", "Premium"]

  /** The form offers exactly the tiers the server can size, in the server's order. */
  lemma TierOptionsMatchServer()
    ensures TierOptions == TierNames
    ensures forall o :: o in TierOptions <==> ParseTier(o).Some?
  {
  }

  // ---------------------------------------------------------------------------
  // Label join
  // ---------------------------------------------------------------------------

  /** The label shown for an instance whose image is not in the catalog. */
  const FallbackLabel: string := "Ubuntu 22.04 LTS"

  /** A listed instance together with the display label of its image (`amiName`). */
  datatype LabelledInstance = LabelledInstance(instance: ListedInstance, amiName: string)

  /** Some catalog entry has image id `id`. */
  predicate InCatalog(amis: seq<Ami>, id: string) {
    exists k :: 0 <= k < |amis| && amis[k].id == id
  }

  /**
    The label of an instance's image: the label of the first catalog entry
    with the instance's image id, or the fallback label when no entry has it
    (in particular when the instance has no image id).
   */
  function AmiName(amis: seq<Ami>, amiId: Option<string>): (name: string)
    ensures amiId.Some? && InCatalog(amis, amiId.value) ==>
              exists k :: 0 <= k < |amis| && amis[k].id == amiId.value && name == amis[k].name
                          && forall j :: 0 <= j < k ==> amis[j].id != amiId.value
    ensures !(amiId.Some? && InCatalog(amis, amiId.value)) ==> name == FallbackLabel
    ensures (forall a :: a in amis ==> a.name in Labels) ==> name in Labels
  {
    match amiId
    case Some(id) => FindLabel(amis, id).GetOr(FallbackLabel)
    case None => FallbackLabel
  }

  /** The `instancesList.map(...)` join: one labelled entry per listed instance. */
  function LabelInstances(instances: seq<ListedInstance>, amis: seq<Ami>): (r: seq<LabelledInstance>)
    ensures |r| == |instances|
    ensures forall i :: 0 <= i < |r| ==> r[i].instance == instances[i]
    ensures forall i :: 0 <= i < |r| ==> r[i].amiName == AmiName(amis, instances[i].amiId)
  {
    seq(|instances|, i requires 0 <= i < |instances| => LabelledInstance(instances[i], AmiName(amis, instances[i].amiId)))
  }

  /** The join distributes over concatenation, so listing order is kept. */
  lemma LabelInstancesAppend(a: seq<ListedInstance>, b: seq<ListedInstance>, amis: seq<Ami>)
    ensures LabelInstances(a + b, amis) == LabelInstances(a, amis) + LabelInstances(b, amis)
  {
    var r := LabelInstances(a + b, amis);
    var s := LabelInstances(a, amis) + LabelInstances(b, amis);
    forall i | 0 <= i < |r|
      ensures r[i] == s[i]
    {
      if i < |a| {
        assert (a + b)[i] == a[i];
      } else {
        assert (a + b)[i] == b[i - |a|];
      }
    }
  }

  /** Against a catalog the server listed, every shown label is one of the five catalog labels. */
  lemma LabelsAreCatalogLabels(instances: seq<ListedInstance>, responses: seq<Option<seq<RegistryImage>>>)
    requires |responses| == |Queries|
    requires ListAmis(responses).Some?
    ensures forall e :: e in LabelInstances(instances, ListAmis(responses).value) ==> e.amiName in Labels
  {
    var amis := ListAmis(responses).value;
    var r := LabelInstances(instances, amis);
    forall e | e in r
      ensures e.amiName in Labels
    {
      var i :| 0 <= i < |r| && r[i] == e;
      assert e.amiName == AmiName(amis, instances[i].amiId);
    }
  }

  // ---------------------------------------------------------------------------
  // Default image
  // ---------------------------------------------------------------------------

  /** `a.name.toLowerCase().includes("ubuntu")` */
  predicate MentionsUbuntu(a: Ami) {
    Contains(Lower(a.name), "ubuntu")
  }

  /** Position of the first catalog entry that mentions Ubuntu. */
  function FirstUbuntu(amis: seq<Ami>): (r: Option<nat>)
    ensures r.Some? ==> r.value < |amis| && MentionsUbuntu(amis[r.value])
                        && forall j :: 0 <= j < r.value ==> !MentionsUbuntu(amis[j])
    ensures r.None? ==> forall j :: 0 <= j < |amis| ==> !MentionsUbuntu(amis[j])
    decreases |amis|
  {
    if |amis| == 0 then None
    else if MentionsUbuntu(amis[0]) then Some(0)
    else match FirstUbuntu(amis[1..])
      case Some(k) => Some(k + 1)
      case None => None
  }

  /**
    The selected image after the catalog arrives: a selection that is in the
    catalog is kept; otherwise it becomes the id of the first entry whose
    label mentions Ubuntu in any letter case, and stays as it was when there
    is no such entry.
   */
  function DefaultAmi(selected: string, amis: seq<Ami>): (r: string)
    ensures InCatalog(amis, selected) ==> r == selected
    ensures !InCatalog(amis, selected) && (exists k :: 0 <= k < |amis| && MentionsUbuntu(amis[k])) ==>
              exists k :: 0 <= k < |amis| && r == amis[k].id && MentionsUbuntu(amis[k])
                          && forall j :: 0 <= j < k ==> !MentionsUbuntu(amis[j])
    ensures (forall k :: 0 <= k < |amis| ==> !MentionsUbuntu(amis[k])) ==> r == selected
    ensures r == selected || InCatalog(amis, r)
  {
    if InCatalog(amis, selected) then selected
    else match FirstUbuntu(amis)
      case Some(k) => amis[k].id
      case None => selected
  }

  /** Choosing the default a second time changes nothing. */
  lemma DefaultAmiIdempotent(selected: string, amis: seq<Ami>)
    ensures DefaultAmi(DefaultAmi(selected, amis), amis) == DefaultAmi(selected, amis)
  {
    var once := DefaultAmi(selected, amis);
    if once != selected {
      assert InCatalog(amis, once);
    }
  }

  /** A label without the letter b does not mention Ubuntu. */
  lemma LacksUbuntu(name: string)
    requires 'b' !in name && 'B' !in name
    ensures !Contains(Lower(name), "ubuntu")
  {
    var l := Lower(name);
    assert 'b' !in l by {
      forall i | 0 <= i < |l|
        ensures l[i] != 'b'
      {
        assert l[i] == LowerChar(name[i]);
        assert name[i] != 'b' && name[i] != 'B';
      }
    }
    assert "ubuntu"[1] == 'b';
    NotContainsMissing(l, "ubuntu", 'b');
  }

  /** A label that starts with "Ubuntu" mentions Ubuntu. */
  lemma HasUbuntu(name: string)
    requires StartsWith(name, "Ubuntu")
    ensures Contains(Lower(name), "ubuntu")
  {
    var l := Lower(name);
    assert l[..6] == "ubuntu" by {
      forall i | 0 <= i < 6
        ensures l[i] == "ubuntu"[i]
      {
        assert l[i] == LowerChar(name[i]);
        assert name[i] == "Ubuntu"[i];
      }
    }
  }

  /** Any position that meets the first-Ubuntu description is the one `FirstUbuntu` finds. */
  lemma {:induction false} FirstUbuntuAt(amis: seq<Ami>, k: nat)
    requires k < |amis| && MentionsUbuntu(amis[k])
    requires forall j :: 0 <= j < k ==> !MentionsUbuntu(amis[j])
    ensures FirstUbuntu(amis) == Some(k)
    decreases k
  {
    if k > 0 {
      assert !MentionsUbuntu(amis[0]);
      assert forall j :: 0 <= j < k - 1 ==> amis[1..][j] == amis[j + 1];
      FirstUbuntuAt(amis[1..], k - 1);
    }
  }

  /** Of the five catalog labels, the first to mention Ubuntu is the third, "Ubuntu 22.04 LTS". */
  lemma LabelsFirstUbuntu()
    ensures !Contains(Lower(Labels[0]), "ubuntu") && !Contains(Lower(Labels[1]), "ubuntu")
    ensures Contains(Lower(Labels[2]), "ubuntu")
  {
    LacksUbuntu(Labels[0]);
    LacksUbuntu(Labels[1]);
    HasUbuntu(Labels[2]);
  }

  /** A catalog whose first three labels are those of the five queries defaults to its third entry. */
  lemma DefaultOfLabelledCatalog(c: seq<Ami>, selected: string)
    requires |c| >= 3 && !InCatalog(c, selected)
    requires forall i :: 0 <= i < 3 ==> c[i].name == Labels[i]
    ensures DefaultAmi(selected, c) == c[2].id
  {
    LabelsFirstUbuntu();
    assert !MentionsUbuntu(c[0]) && !MentionsUbuntu(c[1]) && MentionsUbuntu(c[2]);
    FirstUbuntuAt(c, 2);
  }

  /**
    When every catalog query matches an image, a selection outside the
    catalog defaults to the "Ubuntu 22.04 LTS" entry: the two Amazon Linux
    labels before it do not mention Ubuntu.
   */
  lemma DefaultIsUbuntuLts(responses: seq<Option<seq<RegistryImage>>>, selected: string)
    requires |responses| == |Queries|
    requires forall i :: 0 <= i < |responses| ==> responses[i].Some? && |responses[i].value| > 0
    requires !InCatalog(ListAmis(responses).GetOr([]), selected)
    ensures ListAmis(responses).Some?
    ensures var c := ListAmis(responses).value;
            |c| == 5 && c[2].name == FallbackLabel && DefaultAmi(selected, c) == c[2].id
  {
    CatalogComplete(responses);
    DefaultOfFullCatalog(ListAmis(responses).value, selected);
  }

  /** A catalog labelled exactly as the five queries defaults an outside selection to its "Ubuntu 22.04 LTS" entry. */
  lemma DefaultOfFullCatalog(c: seq<Ami>, selected: string)
    requires |c| == |Queries| && !InCatalog(c, selected)
    requires forall i :: 0 <= i < |c| ==> c[i].name == Labels[i]
    ensures |c| == 5 && c[2].name == FallbackLabel && DefaultAmi(selected, c) == c[2].id
  {
    DefaultOfLabelledCatalog(c, selected);
  }

  // ---------------------------------------------------------------------------
  // Form fields
  // ---------------------------------------------------------------------------

  /** The five form fields. */
  datatype Form = Form(keyName: string, selectedAmi: string, selectedType: string, subnetId: string, sgId: string)

  /** Every field empty. */
  const Cleared: Form := Form("", "", "", "", "")

  /** Position of the first listed instance with id `id` (`instances.find(i => i.id === id)`). */
  function FindInstance(instances: seq<LabelledInstance>, id: string): (r: Option<nat>)
    ensures r.Some? ==> r.value < |instances| && instances[r.value].instance.id == Some(id)
                        && forall j :: 0 <= j < r.value ==> instances[j].instance.id != Some(id)
    ensures r.None? ==> forall j :: 0 <= j < |instances| ==> instances[j].instance.id != Some(id)
    decreases |instances|
  {
    if |instances| == 0 then None
    else if instances[0].instance.id == Some(id) then Some(0)
    else match FindInstance(instances[1..], id)
      case Some(k) => Some(k + 1)
      case None => None
  }

  /** The form an instance fills in; listed instances carry no subnet or security group, so those stay empty. */
  function FormOf(i: ListedInstance): (form: Form)
    ensures form.keyName == i.name && form.selectedType == i.instanceType
    ensures form.selectedAmi != "" <==> i.amiId.Some? && i.amiId.value != ""
    ensures form.selectedAmi != "" ==> i.amiId == Some(form.selectedAmi)
    ensures form.subnetId == "" && form.sgId == ""
  {
    Form(i.name, i.amiId.GetOr(""), i.instanceType, "", "")
  }

  /**
    The effect of a change of selection: no selection (or an empty id)
    clears every field; a selected instance that is listed fills the form
    from the first listed instance with that id; an id that is not listed
    leaves the form as it was.
   */
  function SelectionEffect(selected: Option<string>, instances: seq<LabelledInstance>, form: Form): (r: Form)
    ensures selected.None? || selected == Some("") ==> r == Cleared
    ensures selected.Some? && selected.value != "" && (forall j :: 0 <= j < |instances| ==> instances[j].instance.id != selected) ==>
              r == form
    ensures selected.Some? && selected.value != "" ==>
              forall k :: 0 <= k < |instances| && instances[k].instance.id == selected
                          && (forall j :: 0 <= j < k ==> instances[j].instance.id != selected) ==>
                r == FormOf(instances[k].instance)
  {
    match selected
    case None => Cleared
    case Some(id) =>
      if id == "" then Cleared
      else match FindInstance(instances, id)
        case Some(k) => FormOf(instances[k].instance)
        case None => form
  }

  /** The effect does not depend on the form it replaces except when the id is not listed, so it is idempotent. */
  lemma SelectionIdempotent(selected: Option<string>, instances: seq<LabelledInstance>, form: Form)
    ensures var once := SelectionEffect(selected, instances, form);
            SelectionEffect(selected, instances, once) == once
  {
  }

  // ---------------------------------------------------------------------------
  // Launch
  // ---------------------------------------------------------------------------

  /** `isEditMode`: an instance is selected. */
  predicate EditMode(selected: Option<string>) {
    selected.Some? && selected.value != ""
  }

  /** The button's enabling condition: an image and a tier are selected. */
  predicate FieldsFilled(form: Form) {
    form.selectedAmi != "" && form.selectedType != ""
  }

  /** A launch can be started: the launch button is shown (no instance is selected) and enabled. */
  function LaunchEnabled(selected: Option<string>, form: Form): (ok: bool)
    ensures ok ==> selected == None || selected == Some("")
    ensures ok ==> form.selectedAmi != "" && form.selectedType != ""
  {
    !EditMode(selected) && FieldsFilled(form)
  }

  /** With the tier chosen from the offered options (or the empty placeholder), launch is possible iff no instance is selected and an image and a real tier are chosen. */
  lemma EnabledIffTierChosen(selected: Option<string>, form: Form)
    requires form.selectedType == "" || form.selectedType in TierOptions
    ensures LaunchEnabled(selected, form) <==> !EditMode(selected) && form.selectedAmi != "" && ParseTier(form.selectedType).Some?
  {
  }

  /** Nothing can be launched from a cleared form. */
  lemma ClearedCannotLaunch(instances: seq<LabelledInstance>, form: Form)
    ensures !LaunchEnabled(None, SelectionEffect(None, instances, form))
    ensures !LaunchEnabled(Some(""), SelectionEffect(Some(""), instances, form))
  {
  }

  /**
    Right after a change of selection nothing can be launched: without a
    selection the form is cleared, and with one the launch button is not shown.
   */
  lemma NoLaunchAfterSelection(selected: Option<string>, instances: seq<LabelledInstance>, form: Form)
    ensures !LaunchEnabled(selected, SelectionEffect(selected, instances, form))
  {
    if !EditMode(selected) {
      ClearedCannotLaunch(instances, form);
    }
  }

  /**
    A form filled from a listed instance always has a tier field, so its
    fields enable the button iff the instance has a non-empty image id; but
    selecting that instance hides the launch button.
   */
  lemma FilledFormLaunch(raw: RawInstance)
    ensures FormOf(ListInstance(raw)).selectedType != ""
    ensures FieldsFilled(FormOf(ListInstance(raw))) <==> raw.imageId.Some? && raw.imageId.value != ""
    ensures raw.instanceId.Some? && raw.instanceId.value != "" ==> !LaunchEnabled(raw.instanceId, FormOf(ListInstance(raw)))
  {
    assert StartsWith(ListInstance(raw).instanceType, "t3");
  }

  /** No machine type of the `t3` family is a tier option. */
  lemma MachineTypeIsNotATier(t: string)
    requires StartsWith(t, "t3")
    ensures t !in TierOptions
  {
    assert t[0] == 't';
    assert forall o :: o in TierOptions ==> o[0] != 't';
  }

  /**
    The tier field of a filled form holds the instance's machine type, which
    is never one of the tier options the form offers.
   */
  lemma FilledTypeIsNotATier(raw: RawInstance)
    ensures FormOf(ListInstance(raw)).selectedType !in TierOptions
  {
    MachineTypeIsNotATier(ListInstance(raw).instanceType);
  }

  /** The body posted to the launch endpoint. */
  datatype ProvisionRequest = ProvisionRequest(amiId: string, keyName: string, pricingTier: string)

  /**
    A launch the button allows, with the tier chosen from the options,
    reaches the provider with the selected image, the instance name, and the
    machine size of the chosen tier.
   */
  lemma EnabledLaunchIsSized(selected: Option<string>, form: Form, script: string)
    requires LaunchEnabled(selected, form) && form.selectedType in TierOptions
    ensures var b := ProvisionRequest(form.selectedAmi, form.keyName, form.selectedType);
            var req := Provisioning.LaunchRequest(b.amiId, b.keyName, b.pricingTier, script);
            && req.imageId == form.selectedAmi && req.imageId != ""
            && req.tags[0] == ("Name", form.keyName)
            && ParseTier(form.selectedType).Some?
            && req.instanceType == Some(SizeForTier(ParseTier(form.selectedType).value))
  {
    var b := ProvisionRequest(form.selectedAmi, form.keyName, form.selectedType);
    var req := Provisioning.LaunchRequest(b.amiId, b.keyName, b.pricingTier, script);
    var t := ParseTier(form.selectedType).value;
    assert TierName(t) == form.selectedType;
    var u :| TierName(u) == b.pricingTier && req.instanceType.value == SizeForTier(u);
    TierNameRoundTrip(u);
  }
}

=== FILE: password.dfy ===
/**
  Random password generation: each password character is drawn from a fixed
  70-character alphabet by reducing one random octet modulo the alphabet size.
  The random octets are a parameter, standing for the platform's random source.
 */
module Password {
  import opened Bytes

  const Uppercase: string := "ABCDEFGHIJKLMNOPQRSTUVWXYZ"
  const Lowercase: string := "abcdefghijklmnopqrstuvwxyz"
  const Digits: string := "0123456789"
  const Symbols: string := "!@#$%^&*"

  /** The password alphabet, in the order the random residue indexes it. */
  const Characters: string := Uppercase + Lowercase + Digits + Symbols

  /** The length used when the caller gives none. */
  const DefaultLength: int := 12

  /** The alphabet positions, block by block. */
  lemma CharactersLayout()
    ensures |Characters| == 70
    ensures forall k :: 0 <= k < 26 ==> Characters[k] == (('A' as int) + k) as char
    ensures forall k :: 26 <= k < 52 ==> Characters[k] == (('a' as int) + (k - 26)) as char
    ensures forall k :: 52 <= k < 62 ==> Characters[k] == (('0' as int) + (k - 52)) as char
    ensures forall k :: 62 <= k < 70 ==> Characters[k] == Symbols[k - 62]
  {
    assert Uppercase == seq(26, i requires 0 <= i < 26 => (('A' as int) + i) as char);
    assert Lowercase == seq(26, i requires 0 <= i < 26 => (('a' as int) + i) as char);
    assert Digits == seq(10, i requires 0 <= i < 10 => (('0' as int) + i) as char);
  }

  /** The position of a symbol in `Symbols`. */
  function SymbolIndex(c: char): (k: int)
    ensures 0 <= k < |Symbols| <==> c in Symbols
    ensures 0 <= k < |Symbols| ==> Symbols[k] == c
  {
    if c == '!' then 0
    else if c == '@' then 1
    else if c == '#' then 2
    else if c == '$' then 3
    else if c == '%' then 4
    else if c == '^' then 5
    else if c == '&' then 6
    else if c == '*' then 7
    else -1
  }

  /** Membership in the alphabet, by character class. */
  predicate IsPasswordChar(c: char) {
    ('A' <= c <= 'Z') || ('a' <= c <= 'z') || ('0' <= c <= '9') || c in Symbols
  }

  /** The position of an alphabet character in `Characters`. */
  function CharIndex(c: char): (k: nat)
    requires IsPasswordChar(c)
    ensures k < |Characters|
  {
    CharactersLayout();
    if 'A' <= c <= 'Z' then c as int - 'A' as int
    else if 'a' <= c <= 'z' then c as int - 'a' as int + 26
    else if '0' <= c <= '9' then c as int - '0' as int + 52
    else SymbolIndex(c) + 62
  }

  /** `CharIndex` inverts indexing: the alphabet has no repeated character. */
  lemma CharIndexOf(k: nat)
    requires k < |Characters|
    ensures IsPasswordChar(Characters[k]) && CharIndex(Characters[k]) == k
  {
    CharactersLayout();
    if 62 <= k {
      assert Characters[k] in Symbols;
    }
  }

  /** The class predicate agrees with membership in the alphabet string. */
  lemma IsPasswordCharIff(c: char)
    ensures IsPasswordChar(c) <==> c in Characters
  {
    CharactersLayout();
    if IsPasswordChar(c) {
      var k := CharIndex(c);
      if k < 62 {
        assert Characters[k] == c;
      } else {
        assert Characters[k] == Symbols[k - 62] == c;
      }
    }
    if c in Characters {
      var k :| 0 <= k < |Characters| && Characters[k] == c;
      CharIndexOf(k);
    }
  }

  /**
    `GeneratePassword(length)` given the octets the random source fills in:
    empty for a non-positive length, otherwise one alphabet character per
    octet, the one at the octet's residue modulo the alphabet size.
   */
  function GeneratePassword(length: int, random: seq<byte>): (password: string)
    requires length <= 0 || |random| == length
    ensures length <= 0 ==> password == ""
    ensures length > 0 ==> |password| == length
    ensures forall i :: 0 <= i < |password| ==> IsPasswordChar(password[i])
    ensures forall i :: 0 <= i < |password| ==> CharIndex(password[i]) == random[i] % |Characters|
  {
    CharactersLayout();
    if length <= 0 then ""
    else
      var p := seq(length, i requires 0 <= i < length => Characters[random[i] % 70]);
      assert forall i :: 0 <= i < length ==> IsPasswordChar(p[i]) && CharIndex(p[i]) == random[i] % 70 by {
        forall i | 0 <= i < length
          ensures IsPasswordChar(p[i]) && CharIndex(p[i]) == random[i] % 70
        {
          CharIndexOf(random[i] % 70);
        }
      }
      p
  }

  /** The generator as a loop that appends one character per random octet. */
  method GeneratePasswordLoop(length: int, random: seq<byte>) returns (password: string)
    requires length <= 0 || |random| == length
    ensures length <= 0 ==> password == ""
    ensures length > 0 ==> |password| == length
    ensures forall i :: 0 <= i < |password| ==> password[i] == Characters[random[i] % |Characters|]
  {
    CharactersLayout();
    password := "";
    if length <= 0 {
      return;
    }
    var charLength := |Characters|;
    var i := 0;
    while i < length
      invariant 0 <= i <= length
      invariant |password| == i
      invariant forall j :: 0 <= j < i ==> password[j] == Characters[random[j] % charLength]
    {
      var randomIndex := random[i] % charLength;
      password := password + [Characters[randomIndex]];
      i := i + 1;
    }
  }

  /** The loop and the character-wise definition produce the same password. */
  lemma LoopAgrees(length: int, random: seq<byte>, password: string)
    requires length <= 0 || |random| == length
    requires length <= 0 ==> password == ""
    requires length > 0 ==> |password| == length
    requires forall i :: 0 <= i < |password| ==> password[i] == Characters[random[i] % |Characters|]
    ensures password == GeneratePassword(length, random)
  {
    var g := GeneratePassword(length, random);
    forall i | 0 <= i < |password|
      ensures password[i] == g[i]
    {
      CharIndexInverse(g[i]);
    }
  }

  /** An alphabet character sits at its own index. */
  lemma CharIndexInverse(c: char)
    requires IsPasswordChar(c)
    ensures Characters[CharIndex(c)] == c
  {
    CharactersLayout();
  }
}

=== FILE: provisioning.dfy ===
/**
  Launching a desktop (`addInstance`): the decision table that chooses the
  remote-desktop protocol, first-boot script, gateway username and port from
  the chosen image's catalog label, and the launch workflow around it.

  Provider and database calls are not performed here: their outcomes are an
  input (`Responses`), and the calls the workflow would issue are returned as
  a trace of `Effect`s next to the result.
 */
module Provisioning {
  import opened Wrappers
  import opened Text
  import opened Bytes
  import Base64
  import opened Fleet
  import opened Catalog
  import Password

  /** The remote-desktop protocols the gateway offers. */
  datatype Protocol = Rdp | Ssh | Vnc

  function ProtocolName(p: Protocol): string {
    match p
    case Rdp => "rdp"
    case Ssh => "ssh"
    case Vnc => "vnc"
  }

  /** The operating-system family flags read off an image's catalog label (all false without an image). */
  datatype OsFlags = OsFlags(isWindows: bool, isUbuntu: bool, isAmazonLinux: bool)

  /** `ami?.name.includes(...)` for the three families. */
  function Flags(imageName: Option<string>): (f: OsFlags)
    ensures f.isWindows <==> imageName.Some? && Contains(imageName.value, "Windows")
    ensures f.isUbuntu <==> imageName.Some? && Contains(imageName.value, "Ubuntu")
    ensures f.isAmazonLinux <==> imageName.Some? && Contains(imageName.value, "Amazon Linux")
  {
    match imageName
    case Some(name) => OsFlags(Contains(name, "Windows"), Contains(name, "Ubuntu"), Contains(name, "Amazon Linux"))
    case None => OsFlags(false, false, false)
  }

  /**
    The protocol of a launch: the requested one when given; otherwise rdp
    for an image whose label mentions "Windows" or "RDP", and ssh for every
    other image or none. Inference never yields vnc.
   */
  function InferProtocol(requested: Option<Protocol>, imageName: Option<string>): (p: Protocol)
    ensures requested.Some? ==> p == requested.value
    ensures requested.None? ==>
              (p == Rdp <==> imageName.Some? && (Contains(imageName.value, "Windows") || Contains(imageName.value, "RDP")))
    ensures requested.None? ==> p != Vnc
  {
    match requested
    case Some(q) => q
    case None =>
      if imageName.Some? && (Contains(imageName.value, "Windows") || Contains(imageName.value, "RDP")) then Rdp else Ssh
  }

  /** First-boot script for a Windows image under rdp: sets the Administrator password. */
  function WindowsScript(password: string): string {
    WindowsHead + "Administrator" + " \"" + password + WindowsTail
  }

  /** The opening of the Windows script: a PowerShell block. */
  const PowershellOpening: string := "\n<powershell>\n"
  /** The Windows script up to the credentials it sets. */
  const WindowsHead: string := PowershellOpening + "net user "
  /** The Windows script after the credentials. */
  const WindowsTail: string := "\"\n</powershell>\n"

  /** The first line of every cloud-config script. */
  const CloudConfigHeader: string := "\n#cloud-config\n"
  /** The start of the two rdp cloud-configs: update the packages, then run commands. */
  const PackageRunStart: string := CloudConfigHeader + "package_update: true\nruncmd:\n  - "

  /** The opening of the Ubuntu rdp script: a cloud-config that installs xrdp and xfce4 with apt-get. */
  const AptXrdpOpening: string :=
    PackageRunStart + "apt-get update\n"
    + "  - DEBIAN_FRONTEND=noninteractive apt-get install -y xrdp xfce4\n"
  /** The Ubuntu rdp script up to the credentials it sets. */
  const UbuntuRdpHead: string :=
    AptXrdpOpening
    + "  - systemctl enable xrdp\n  - systemctl restart xrdp\n"
    + "  - echo \""
  /** The Ubuntu rdp script after the credentials. */
  const UbuntuRdpTail: string :=
    "\" | chpasswd\n"
    + "  - echo xfce4-session > /home/ubuntu/.xsession\n"
    + "  - chown ubuntu:ubuntu /home/ubuntu/.xsession\n"

  /** First-boot script for an Ubuntu image under rdp: installs xrdp and xfce4 and sets the ubuntu password. */
  function UbuntuRdpScript(password: string): string {
    UbuntuRdpHead + "ubuntu" + ":" + password + UbuntuRdpTail
  }

  /** The opening of the Amazon Linux rdp script: a cloud-config that installs xrdp with yum. */
  const YumXrdpOpening: string :=
    PackageRunStart + "yum" + " install -y epel-release\n  - yum install -y xrdp tigervnc-server\n"
  /** The Amazon Linux rdp script up to the credentials it sets. */
  const AmazonRdpHead: string :=
    YumXrdpOpening
    + "  - systemctl enable xrdp\n  - systemctl start xrdp\n"
    + "  - echo \""
  /** The Amazon Linux rdp script after the credentials. */
  const AmazonRdpTail: string :=
    "\" | chpasswd\n"
    + "  - sed -i 's/^PasswordAuthentication no/PasswordAuthentication yes/' /etc/ssh/sshd_config\n"
    + "  - systemctl restart sshd\n"
    + "  - echo \"exec /usr/bin/xterm\" > /home/ec2-user/.Xclients\n"
    + "  - chmod +x /home/ec2-user/.Xclients\n"
    + "  - chown ec2-user:ec2-user /home/ec2-user/.Xclients\n"

  /** First-boot script for an Amazon Linux image under rdp: installs xrdp and sets the ec2-user password. */
  function AmazonRdpScript(password: string): string {
    AmazonRdpHead + "ec2-user" + ":" + password + AmazonRdpTail
  }

  /** The opening of the ssh script: a cloud-config that turns on password login. */
  const SshPasswordOpening: string := CloudConfigHeader + "ssh_pwauth: true\n"
  /** The ssh script up to the credentials it sets. */
  const SshHead: string := SshPasswordOpening + "chpasswd:\n  list: |\n    "
  /** The ssh script after the credentials. */
  const SshTail: string := "\n  expire: false\n"

  /** First-boot script under ssh: enables password login and sets the password of `username`. */
  function SshScript(username: string, password: string): string {
    SshHead + username + ":" + password + SshTail
  }

  /** A script `head + user + sep + password + tail` holds both the credential pair and the password. */
  lemma CredentialsIn(head: string, user: string, sep: string, password: string, tail: string)
    ensures Contains(head + user + sep + password + tail, user + sep + password)
    ensures Contains(head + user + sep + password + tail, password)
  {
    assert head + user + sep + password + tail == head + (user + sep + password) + tail;
    ContainsMiddle(head, user + sep + password, tail);
    ContainsMiddle(head + user + sep, password, tail);
  }

  /** How a script writes a user and its password: `user "password"` for `net user`, `user:password` in cloud-config. */
  function CredentialSeparator(p: Protocol, f: OsFlags): string {
    if p == Rdp && f.isWindows then " \"" else ":"
  }

  /** The gateway login: under rdp Administrator for Windows; otherwise ubuntu for Ubuntu and ec2-user for the rest. */
  function Username(p: Protocol, f: OsFlags): (user: string)
    ensures user in {"Administrator", "ubuntu", "ec2-user"}
    ensures user == "Administrator" <==> p == Rdp && f.isWindows
    ensures user == "ubuntu" <==> f.isUbuntu && !(p == Rdp && f.isWindows)
  {
    if p == Rdp then (if f.isWindows then "Administrator" else if f.isUbuntu then "ubuntu" else "ec2-user")
    else if f.isUbuntu then "ubuntu" else "ec2-user"
  }

  /** The script run on first boot; empty for vnc and for rdp on an image of no known family. */
  function SelectScript(p: Protocol, f: OsFlags, password: string): (script: string)
    ensures script == "" <==> p == Vnc || (p == Rdp && !f.isWindows && !f.isUbuntu && !f.isAmazonLinux)
  {
    match p
    case Rdp =>
      if f.isWindows then WindowsScript(password)
      else if f.isUbuntu then UbuntuRdpScript(password)
      else if f.isAmazonLinux then AmazonRdpScript(password)
      else ""
    case Ssh => SshScript(Username(p, f), password)
    case Vnc => ""
  }

  /**
    The script provisions the credentials the gateway will use: every
    non-empty script sets the gateway username's password to the generated one.
   */
  lemma ScriptSetsGatewayCredentials(p: Protocol, f: OsFlags, password: string)
    ensures SelectScript(p, f, password) != "" ==>
              Contains(SelectScript(p, f, password), password)
              && Contains(SelectScript(p, f, password), Username(p, f) + CredentialSeparator(p, f) + password)
  {
    match p
    case Rdp =>
      if f.isWindows {
        WindowsScriptCredentials(password);
      } else if f.isUbuntu {
        UbuntuRdpScriptCredentials(password);
      } else if f.isAmazonLinux {
        AmazonRdpScriptCredentials(password);
      }
    case Ssh =>
      SshScriptCredentials(Username(p, f), password);
    case Vnc =>
  }

  /**
    Which script runs: read off its opening, the script is a PowerShell
    block exactly for rdp on Windows, installs xrdp with apt-get exactly for
    rdp on Ubuntu (not Windows), installs xrdp with yum exactly for rdp on
    Amazon Linux (neither of the others), and turns on ssh password login
    exactly for ssh.
   */
  lemma ScriptTable(p: Protocol, f: OsFlags, password: string)
    ensures var s := SelectScript(p, f, password);
            && (StartsWith(s, PowershellOpening) <==> p == Rdp && f.isWindows)
            && (StartsWith(s, AptXrdpOpening) <==> p == Rdp && !f.isWindows && f.isUbuntu)
            && (StartsWith(s, YumXrdpOpening) <==> p == Rdp && !f.isWindows && !f.isUbuntu && f.isAmazonLinux)
            && (StartsWith(s, SshPasswordOpening) <==> p == Ssh)
  {
    match p
    case Rdp =>
      if f.isWindows {
        WindowsOpening(password);
      } else if f.isUbuntu {
        AptXrdpOpens(password);
      } else if f.isAmazonLinux {
        YumXrdpOpens(password);
      } else {
        assert SelectScript(p, f, password) == "";
      }
    case Ssh =>
      SshOpens(Username(p, f), password);
    case Vnc =>
      assert SelectScript(p, f, password) == "";
  }

  /** The Windows script opens as a PowerShell block, and with none of the other openings. */
  lemma WindowsOpening(password: string)
    ensures var s := WindowsScript(password);
            StartsWith(s, PowershellOpening) && !StartsWith(s, AptXrdpOpening)
            && !StartsWith(s, YumXrdpOpening) && !StartsWith(s, SshPasswordOpening)
  {
    var rest := "net user " + "Administrator" + " \"" + password + WindowsTail;
    WindowsSplits(password);
    OpeningsDiffer();
    OpeningOf(PowershellOpening, rest, AptXrdpOpening, 1);
    OpeningOf(PowershellOpening, rest, YumXrdpOpening, 1);
    OpeningOf(PowershellOpening, rest, SshPasswordOpening, 1);
  }

  /** `WindowsScript` as its opening followed by the rest of the text. */
  lemma WindowsSplits(password: string)
    ensures WindowsScript(password) == PowershellOpening + ("net user " + "Administrator" + " \"" + password + WindowsTail)
  {
  }

  /** The Ubuntu rdp script opens with the apt-get xrdp install, and with none of the other openings. */
  lemma AptXrdpOpens(password: string)
    ensures var s := UbuntuRdpScript(password);
            !StartsWith(s, PowershellOpening) && StartsWith(s, AptXrdpOpening)
            && !StartsWith(s, YumXrdpOpening) && !StartsWith(s, SshPasswordOpening)
  {
    var rest := "  - systemctl enable xrdp\n  - systemctl restart xrdp\n" + "  - echo \"" + "ubuntu" + ":" + password + UbuntuRdpTail;
    UbuntuRdpSplits(password);
    OpeningsDiffer();
    OpeningOf(AptXrdpOpening, rest, PowershellOpening, 1);
    OpeningOf(AptXrdpOpening, rest, YumXrdpOpening, 48);
    OpeningOf(AptXrdpOpening, rest, SshPasswordOpening, 15);
  }

  /** `UbuntuRdpScript` as its opening followed by the rest of the text. */
  lemma UbuntuRdpSplits(password: string)
    ensures UbuntuRdpScript(password) == AptXrdpOpening + ("  - systemctl enable xrdp\n  - systemctl restart xrdp\n" + "  - echo \"" + "ubuntu" + ":" + password + UbuntuRdpTail)
  {
    Regroup(AptXrdpOpening, "  - systemctl enable xrdp\n  - systemctl restart xrdp\n", "  - echo \"", "ubuntu", ":", password, UbuntuRdpTail);
  }

  /** The Amazon Linux rdp script opens with the yum xrdp install, and with none of the other openings. */
  lemma YumXrdpOpens(password: string)
    ensures var s := AmazonRdpScript(password);
            !StartsWith(s, PowershellOpening) && !StartsWith(s, AptXrdpOpening)
            && StartsWith(s, YumXrdpOpening) && !StartsWith(s, SshPasswordOpening)
  {
    var rest := "  - systemctl enable xrdp\n  - systemctl start xrdp\n" + "  - echo \"" + "ec2-user" + ":" + password + AmazonRdpTail;
    AmazonRdpSplits(password);
    OpeningsDiffer();
    OpeningOf(YumXrdpOpening, rest, PowershellOpening, 1);
    OpeningOf(YumXrdpOpening, rest, AptXrdpOpening, 48);
    OpeningOf(YumXrdpOpening, rest, SshPasswordOpening, 15);
  }

  /** `AmazonRdpScript` as its opening followed by the rest of the text. */
  lemma AmazonRdpSplits(password: string)
    ensures AmazonRdpScript(password) == YumXrdpOpening + ("  - systemctl enable xrdp\n  - systemctl start xrdp\n" + "  - echo \"" + "ec2-user" + ":" + password + AmazonRdpTail)
  {
    Regroup(YumXrdpOpening, "  - systemctl enable xrdp\n  - systemctl start xrdp\n", "  - echo \"", "ec2-user", ":", password, AmazonRdpTail);
  }

  /** Moving the opening `o` of a script out of its left-nested concatenation. */
  lemma Regroup(o: string, a: string, b: string, user: string, sep: string, password: string, tail: string)
    ensures o + a + b + user + sep + password + tail == o + (a + b + user + sep + password + tail)
  {
  }

  /** The ssh script opens by turning on password login, and with none of the other openings. */
  lemma SshOpens(username: string, password: string)
    ensures var s := SshScript(username, password);
            !StartsWith(s, PowershellOpening) && !StartsWith(s, AptXrdpOpening)
            && !StartsWith(s, YumXrdpOpening) && StartsWith(s, SshPasswordOpening)
  {
    var rest := "chpasswd:\n  list: |\n    " + username + ":" + password + SshTail;
    SshSplits(username, password);
    OpeningsDiffer();
    OpeningOf(SshPasswordOpening, rest, PowershellOpening, 1);
    OpeningOf(SshPasswordOpening, rest, AptXrdpOpening, 15);
    OpeningOf(SshPasswordOpening, rest, YumXrdpOpening, 15);
  }

  /** `SshScript` as its opening followed by the rest of the text. */
  lemma SshSplits(username: string, password: string)
    ensures SshScript(username, password) == SshPasswordOpening + ("chpasswd:\n  list: |\n    " + username + ":" + password + SshTail)
  {
  }

  /** Where the four openings first differ: after the newline, and after the cloud-config header and the runcmd list start. */
  lemma OpeningsDiffer()
    ensures |PowershellOpening| > 1 && PowershellOpening[1] == '<'
    ensures |SshPasswordOpening| > 15 && SshPasswordOpening[1] == '#' && SshPasswordOpening[15] == 's'
    ensures |AptXrdpOpening| > 48 && AptXrdpOpening[1] == '#' && AptXrdpOpening[15] == 'p' && AptXrdpOpening[48] == 'a'
    ensures |YumXrdpOpening| > 48 && YumXrdpOpening[1] == '#' && YumXrdpOpening[15] == 'p' && YumXrdpOpening[48] == 'y'
  {
    assert |CloudConfigHeader| == 15 && CloudConfigHeader[1] == '#';
    assert |PackageRunStart| == 48;
    assert PackageRunStart[1] == CloudConfigHeader[1] && PackageRunStart[15] == 'p';
    assert AptXrdpOpening[1] == PackageRunStart[1] && AptXrdpOpening[15] == PackageRunStart[15];
    assert YumXrdpOpening[1] == PackageRunStart[1] && YumXrdpOpening[15] == PackageRunStart[15];
    assert SshPasswordOpening[1] == CloudConfigHeader[1];
    var rest := " install -y epel-release\n  - yum install -y xrdp tigervnc-server\n";
    assert YumXrdpOpening == PackageRunStart + ("yum" + rest);
    assert YumXrdpOpening[48] == ("yum" + rest)[0] == 'y';
  }

  /** A text that opens with `o` opens with `o`, and not with any `q` that differs from `o` at position `k`. */
  lemma OpeningOf(o: string, rest: string, q: string, k: nat)
    requires k < |o| && k < |q| && o[k] != q[k]
    ensures StartsWith(o + rest, o) && !StartsWith(o + rest, q)
  {
    assert (o + rest)[..|o|] == o;
    if |q| <= |o + rest| {
      assert (o + rest)[..|q|][k] == o[k];
    }
  }

  lemma WindowsScriptCredentials(password: string)
    ensures Contains(WindowsScript(password), password)
    ensures Contains(WindowsScript(password), "Administrator" + " \"" + password)
  {
    CredentialsIn(WindowsHead, "Administrator", " \"", password, WindowsTail);
  }

  lemma UbuntuRdpScriptCredentials(password: string)
    ensures Contains(UbuntuRdpScript(password), password)
    ensures Contains(UbuntuRdpScript(password), "ubuntu" + ":" + password)
  {
    CredentialsIn(UbuntuRdpHead, "ubuntu", ":", password, UbuntuRdpTail);
  }

  lemma AmazonRdpScriptCredentials(password: string)
    ensures Contains(AmazonRdpScript(password), password)
    ensures Contains(AmazonRdpScript(password), "ec2-user" + ":" + password)
  {
    CredentialsIn(AmazonRdpHead, "ec2-user", ":", password, AmazonRdpTail);
  }

  lemma SshScriptCredentials(user: string, password: string)
    ensures Contains(SshScript(user, password), password)
    ensures Contains(SshScript(user, password), user + ":" + password)
  {
    CredentialsIn(SshHead, user, ":", password, SshTail);
  }

  /** The ports opened to the world after launch, in the order they are authorised. */
  const IngressPorts: seq<nat> := [3389, 22, 5900]

  /** The port the gateway connects to: 3389 for rdp, 22 for ssh, 5900 otherwise. */
  function Port(p: Protocol): (port: nat)
    ensures port in IngressPorts
    ensures p == Rdp <==> port == 3389
    ensures p == Ssh <==> port == 22
  {
    if p == Rdp then 3389 else if p == Ssh then 22 else 5900
  }

  /** Each protocol has its own port, so the port identifies the protocol. */
  lemma PortInjective(p: Protocol, q: Protocol)
    ensures Port(p) == Port(q) ==> p == q
  {
  }

  /** The launch request (`RunInstancesCommand`). */
  datatype RunRequest = RunRequest(
    imageId: string,
    instanceType: Option<string>,
    minCount: nat,
    maxCount: nat,
    keyPair: string,
    userData: string,
    tags: seq<(string, string)>)

  /** The provider key pair every desktop is launched with. */
  const KeyPair: string := "days-keypair"

  /**
    The request for one desktop: the tier's size (absent for a tier name
    outside the table), the first-boot script as base 64 of its UTF-8 bytes,
    and Name and PricingTier tags.
   */
  function LaunchRequest(amiId: string, keyName: string, pricingTier: string, script: string): (req: RunRequest)
    ensures req.imageId == amiId && req.minCount == 1 && req.maxCount == 1 && req.keyPair == KeyPair
    ensures req.instanceType.Some? <==> pricingTier in TierNames
    ensures req.instanceType.Some? ==> exists t :: TierName(t) == pricingTier && req.instanceType.value == SizeForTier(t)
    ensures req.tags == [("Name", keyName), ("PricingTier", pricingTier)]
    ensures Base64.Decode(req.userData) == Some(Utf8(script))
  {
    var size := match ParseTier(pricingTier) case Some(t) => Some(SizeForTier(t)) case None => None;
    Base64.DecodeEncode(Utf8(script));
    RunRequest(amiId, size, 1, 1, KeyPair, Base64.Encode(Utf8(script)), [("Name", keyName), ("PricingTier", pricingTier)])
  }

  /** The connection parameters written to the gateway database, in order. */
  function Parameters(dns: string, username: string, password: string, port: nat): (ps: seq<(string, string)>)
    ensures |ps| == 6 && ps[0] == ("hostname", dns) && ps[1] == ("username", username) && ps[2] == ("password", password)
    ensures ps[3] == ("ignore-cert", "true") && ps[4] == ("security", "any")
    ensures ps[5].0 == "port" && ps[5].1 == Decimal(port) && ParseDecimal(ps[5].1) == port
  {
    ParseDecimalOf(port);
    [("hostname", dns), ("username", username), ("password", password),
     ("ignore-cert", "true"), ("security", "any"), ("port", Decimal(port))]
  }

  /** The outcome of `RunInstancesCommand`: an error, or the first launched instance (if any). */
  datatype LaunchOutcome = LaunchError | Launched(instance: Option<LaunchedInstance>)
  datatype LaunchedInstance = LaunchedInstance(instanceId: Option<string>, groupId: Option<string>)

  /** The outcome of one `DescribeInstancesCommand`: an error, or the instance's public DNS name (if any). */
  datatype DescribeOutcome = DescribeError | Described(publicDns: Option<string>)

  /** The outcome of one ingress authorisation: success, or an error by name. */
  datatype IngressOutcome = Authorized | IngressError(name: string)

  /** What the provider and the database answer, call by call. */
  datatype Responses = Responses(
    catalog: Option<seq<Ami>>,
    random: seq<byte>,
    launch: LaunchOutcome,
    describes: seq<DescribeOutcome>,
    ingress: seq<IngressOutcome>,
    upsertOk: bool,
    insertOk: bool)

  /** The provider and database calls the workflow issues. */
  datatype Effect =
    | RunInstances(request: RunRequest)
    | DescribeInstance(instanceId: string)
    | AuthorizeIngress(groupId: Option<string>, port: nat)
    | UpsertConnection(connectionName: string, protocol: string)
    | InsertParameters(connectionName: string, parameters: seq<(string, string)>)

  /** The result: `{}` on any failure, or the new desktop's gateway connection. */
  datatype Outcome =
    | Failed
    | Provisioned(instanceId: string, dns: string, connectionName: string, protocol: Protocol)

  /** The address poll gives up after this many attempts. */
  const PollAttempts: nat := 15

  /** A described instance that has no public DNS name yet. */
  predicate NoDnsYet(d: DescribeOutcome) {
    d.Described? && (d.publicDns.None? || d.publicDns.value == "")
  }

  datatype PollResult = PollError | Found(dns: string) | NotFound

  /**
    The address poll over the describe answers: stops at the first answer
    with a non-empty DNS name or at the first error; `attempts` counts the
    describe calls made. The poll has no counter of its own: the bound of
    `PollAttempts` (15) calls comes from `WellFormed`, which supplies exactly
    that many answers.
   */
  function Poll(describes: seq<DescribeOutcome>): (r: (PollResult, nat))
    ensures var (res, attempts) := r;
            && attempts <= |describes|
            && (forall j :: 0 <= j < attempts - 1 ==> NoDnsYet(describes[j]))
            && (res.NotFound? <==> attempts == |describes| && forall j :: 0 <= j < |describes| ==> NoDnsYet(describes[j]))
            && (res.Found? ==> attempts >= 1 && res.dns != "" && describes[attempts - 1] == Described(Some(res.dns)))
            && (res.PollError? ==> attempts >= 1 && describes[attempts - 1] == DescribeError)
    decreases |describes|
  {
    if |describes| == 0 then (NotFound, 0)
    else match describes[0]
      case DescribeError => (PollError, 1)
      case Described(dns) =>
        if dns.Some? && dns.value != "" then (Found(dns.value), 1)
        else
          var (res, attempts) := Poll(describes[1..]);
          assert forall j :: 1 <= j < |describes| ==> describes[j] == describes[1..][j - 1];
          (res, attempts + 1)
  }

  /** The ingress errors that are skipped. */
  const ToleratedErrors: set<string> := {"InvalidPermission.Duplicate", "InvalidPermission.Malformed"}

  function Tolerated(o: IngressOutcome): (ok: bool)
    ensures ok <==> o == Authorized || o == IngressError("InvalidPermission.Duplicate") || o == IngressError("InvalidPermission.Malformed")
  {
    o.Authorized? || o.name in ToleratedErrors
  }

  /**
    The ingress loop over the authorisation answers: succeeds when every
    error is tolerated; otherwise stops at the first other error.
    `attempts` counts the authorisation calls made.
   */
  function AuthorizeAll(outcomes: seq<IngressOutcome>): (r: (bool, nat))
    ensures var (ok, attempts) := r;
            && attempts <= |outcomes|
            && (forall j :: 0 <= j < attempts - 1 ==> Tolerated(outcomes[j]))
            && (ok <==> forall j :: 0 <= j < |outcomes| ==> Tolerated(outcomes[j]))
            && (ok ==> attempts == |outcomes|)
            && (!ok ==> attempts >= 1 && !Tolerated(outcomes[attempts - 1]))
    decreases |outcomes|
  {
    if |outcomes| == 0 then (true, 0)
    else if !Tolerated(outcomes[0]) then (false, 1)
    else
      var (ok, attempts) := AuthorizeAll(outcomes[1..]);
      assert forall j :: 1 <= j < |outcomes| ==> outcomes[j] == outcomes[1..][j - 1];
      (ok, attempts + 1)
  }

  /** `n` copies of the describe call for `instanceId`. */
  function DescribeCalls(instanceId: string, n: nat): (es: seq<Effect>)
    ensures |es| == n && forall e :: e in es ==> e == DescribeInstance(instanceId)
  {
    seq(n, j => DescribeInstance(instanceId))
  }

  /** The authorisation calls for the first `n` ingress ports. */
  function IngressCalls(groupId: Option<string>, n: nat): (es: seq<Effect>)
    requires n <= |IngressPorts|
    ensures |es| == n && forall j :: 0 <= j < n ==> es[j] == AuthorizeIngress(groupId, IngressPorts[j])
  {
    seq(n, j requires 0 <= j < n => AuthorizeIngress(groupId, IngressPorts[j]))
  }

  /** The answers are shaped like the calls: 12 random octets, 15 describe answers, 3 ingress answers. */
  predicate WellFormed(env: Responses) {
    |env.random| == Password.DefaultLength && |env.describes| == PollAttempts && |env.ingress| == |IngressPorts|
  }

  /** The decisions taken before launch from the chosen image's label. */
  datatype Plan = Plan(protocol: Protocol, flags: OsFlags, password: string, script: string)

  /**
    Protocol, family, password and script for image `amiId` of the catalog.
    The password has 12 alphabet characters; a requested protocol is used,
    and an inferred one is never vnc. An image found in the catalog has the
    families its label names, and an inferred protocol is rdp exactly when
    the label mentions "Windows" or "RDP"; an image missing from the catalog
    has no family and, unless a protocol is requested, gets ssh. Whenever there
    is a script, it sets the gateway user's password to the plan's.
   */
  function MakePlan(amis: seq<Ami>, amiId: string, requested: Option<Protocol>, random: seq<byte>): (plan: Plan)
    requires |random| == Password.DefaultLength
    ensures |plan.password| == Password.DefaultLength
    ensures forall i :: 0 <= i < |plan.password| ==> Password.IsPasswordChar(plan.password[i])
    ensures requested.Some? ==> plan.protocol == requested.value
    ensures requested.None? ==> plan.protocol != Vnc
    ensures FindLabel(amis, amiId).None? ==> plan.flags == OsFlags(false, false, false) && (requested.None? ==> plan.protocol == Ssh)
    ensures FindLabel(amis, amiId).Some? ==>
              var name := FindLabel(amis, amiId).value;
              && (plan.flags.isWindows <==> Contains(name, "Windows"))
              && (plan.flags.isUbuntu <==> Contains(name, "Ubuntu"))
              && (plan.flags.isAmazonLinux <==> Contains(name, "Amazon Linux"))
              && (requested.None? ==> (plan.protocol == Rdp <==> Contains(name, "Windows") || Contains(name, "RDP")))
    ensures plan.script == "" <==>
              plan.protocol == Vnc || (plan.protocol == Rdp && !plan.flags.isWindows && !plan.flags.isUbuntu && !plan.flags.isAmazonLinux)
    ensures plan.script != "" ==>
              Contains(plan.script, plan.password)
              && Contains(plan.script, Username(plan.protocol, plan.flags) + CredentialSeparator(plan.protocol, plan.flags) + plan.password)
  {
    var imageName := FindLabel(amis, amiId);
    var protocol := InferProtocol(requested, imageName);
    var flags := Flags(imageName);
    var password := Password.GeneratePassword(Password.DefaultLength, random);
    ScriptSetsGatewayCredentials(protocol, flags, password);
    Plan(protocol, flags, password, SelectScript(protocol, flags, password))
  }

  /** Some describe answer carries a DNS name, and every earlier one has none: the poll finds `dns` at `k`. */
  ghost predicate FirstAddressAt(describes: seq<DescribeOutcome>, k: nat, dns: string) {
    && k < |describes|
    && dns != ""
    && describes[k] == Described(Some(dns))
    && forall j :: 0 <= j < k ==> NoDnsYet(describes[j])
  }

  /** The poll stops at the first address, after `k + 1` describe calls. */
  lemma {:induction false} PollFindsFirstAddress(describes: seq<DescribeOutcome>, k: nat, dns: string)
    requires FirstAddressAt(describes, k, dns)
    ensures Poll(describes) == (Found(dns), k + 1)
    decreases k
  {
    if k > 0 {
      assert NoDnsYet(describes[0]);
      assert FirstAddressAt(describes[1..], k - 1, dns) by {
        assert forall j :: 0 <= j < k - 1 ==> describes[1..][j] == describes[j + 1];
      }
      PollFindsFirstAddress(describes[1..], k - 1, dns);
    }
  }

  /** A poll that finds an address found the first one. */
  lemma PollFoundIsFirst(describes: seq<DescribeOutcome>)
    requires Poll(describes).0.Found?
    ensures FirstAddressAt(describes, Poll(describes).1 - 1, Poll(describes).0.dns)
  {
  }

  /**
    What happens once the instance `id` is running: poll for its address,
    open the ingress ports of security group `groupId`, then record the
    gateway connection and its parameters.
   */
  function Connect(id: string, groupId: Option<string>, keyName: string, plan: Plan, env: Responses): (r: (Outcome, seq<Effect>))
    requires WellFormed(env)
    ensures r.0.Provisioned? ==> r.0 == Provisioned(id, r.0.dns, keyName, plan.protocol)
    ensures r.0.Provisioned? ==> exists k :: FirstAddressAt(env.describes, k, r.0.dns)
  {
    var (polled, describeCount) := Poll(env.describes);
    var afterPoll := DescribeCalls(id, describeCount);
    if !polled.Found? then (Failed, afterPoll)
    else
      var dns := polled.dns;
      PollFoundIsFirst(env.describes);
      var (portsOpen, ingressCount) := AuthorizeAll(env.ingress);
      var afterIngress := afterPoll + IngressCalls(groupId, ingressCount);
      if !portsOpen then (Failed, afterIngress)
      else
        var afterUpsert := afterIngress + [UpsertConnection(keyName, ProtocolName(plan.protocol))];
        if !env.upsertOk then (Failed, afterUpsert)
        else
          var parameters := Parameters(dns, Username(plan.protocol, plan.flags), plan.password, Port(plan.protocol));
          var afterInsert := afterUpsert + [InsertParameters(keyName, parameters)];
          if !env.insertOk then (Failed, afterInsert)
          else (Provisioned(id, dns, keyName, plan.protocol), afterInsert)
  }

  /**
    `addInstance(amiId, keyName, pricingTier, protocol)`: fetch the catalog,
    decide protocol, password and script, launch, poll for the address, open
    the ports, and record the gateway connection; any failure gives `Failed`.
   */
  function Provision(amiId: string, keyName: string, pricingTier: string, requested: Option<Protocol>, env: Responses): (r: (Outcome, seq<Effect>))
    requires WellFormed(env)
    ensures env.catalog.None? ==> r == (Failed, [])
    ensures r.0.Provisioned? ==> r.0.connectionName == keyName && r.0.dns != ""
    ensures r.0.Provisioned? ==> LaunchedWithId(env.launch) && r.0.instanceId == env.launch.instance.value.instanceId.value
  {
    match env.catalog
    case None => (Failed, [])
    case Some(amis) =>
      var plan := MakePlan(amis, amiId, requested, env.random);
      var launch := [RunInstances(LaunchRequest(amiId, keyName, pricingTier, plan.script))];
      if !LaunchedWithId(env.launch) then (Failed, launch)
      else
        var inst := env.launch.instance.value;
        var (outcome, effects) := Connect(inst.instanceId.value, inst.groupId, keyName, plan, env);
        (outcome, launch + effects)
  }

  /** The launched instance has a usable id. */
  function LaunchedWithId(launch: LaunchOutcome): (ok: bool)
    ensures ok ==> exists id, groupId :: id != "" && launch == Launched(Some(LaunchedInstance(Some(id), groupId)))
    ensures (exists id, groupId :: id != "" && launch == Launched(Some(LaunchedInstance(Some(id), groupId)))) ==> ok
  {
    launch.Launched? && launch.instance.Some? && launch.instance.value.instanceId.Some?
    && launch.instance.value.instanceId.value != ""
  }

  /** Every provider and database call the workflow makes succeeds (or fails in a tolerated way). */
  ghost predicate AllCallsSucceed(env: Responses) {
    && env.catalog.Some?
    && LaunchedWithId(env.launch)
    && (exists k, dns :: FirstAddressAt(env.describes, k, dns))
    && (forall j :: 0 <= j < |env.ingress| ==> Tolerated(env.ingress[j]))
    && env.upsertOk
    && env.insertOk
  }

  /** Once the catalog is known and the instance launched, the workflow is the launch request followed by `Connect`. */
  lemma ProvisionLaunches(amiId: string, keyName: string, pricingTier: string, requested: Option<Protocol>, env: Responses)
    requires WellFormed(env) && env.catalog.Some? && LaunchedWithId(env.launch)
    ensures var plan := MakePlan(env.catalog.value, amiId, requested, env.random);
            var inst := env.launch.instance.value;
            var c := Connect(inst.instanceId.value, inst.groupId, keyName, plan, env);
            Provision(amiId, keyName, pricingTier, requested, env)
            == (c.0, [RunInstances(LaunchRequest(amiId, keyName, pricingTier, plan.script))] + c.1)
  {
  }

  /** The calls of a successful `Connect`: the poll, all three ingress calls, then the two gateway writes. */
  lemma ConnectSucceeded(id: string, groupId: Option<string>, keyName: string, plan: Plan, env: Responses)
    requires WellFormed(env) && Connect(id, groupId, keyName, plan, env).0.Provisioned?
    ensures var (outcome, effects) := Connect(id, groupId, keyName, plan, env);
            && Poll(env.describes).0 == Found(outcome.dns)
            && effects == DescribeCalls(id, Poll(env.describes).1) + IngressCalls(groupId, |IngressPorts|)
                          + [UpsertConnection(keyName, ProtocolName(plan.protocol))]
                          + [InsertParameters(keyName, Parameters(outcome.dns, Username(plan.protocol, plan.flags), plan.password, Port(plan.protocol)))]
  {
  }

  /** The calls of a `Connect` whose `j`-th ingress call fails untolerated: the poll and the first `j + 1` ingress calls. */
  lemma ConnectIngressError(id: string, groupId: Option<string>, keyName: string, plan: Plan, env: Responses, j: nat)
    requires WellFormed(env)
    requires exists k, dns :: FirstAddressAt(env.describes, k, dns)
    requires j < |env.ingress| && !Tolerated(env.ingress[j]) && forall i :: 0 <= i < j ==> Tolerated(env.ingress[i])
    ensures var (outcome, effects) := Connect(id, groupId, keyName, plan, env);
            outcome == Failed && effects == DescribeCalls(id, Poll(env.describes).1) + IngressCalls(groupId, j + 1)
  {
    var k, dns :| FirstAddressAt(env.describes, k, dns);
    PollFindsFirstAddress(env.describes, k, dns);
    var (ok, attempts) := AuthorizeAll(env.ingress);
    assert attempts == j + 1;
  }

  /** When the poll finds `dns` and every later call succeeds, `Connect` reports that address with the plan's protocol. */
  lemma ConnectProvisions(id: string, groupId: Option<string>, keyName: string, plan: Plan, env: Responses, k: nat, dns: string)
    requires WellFormed(env) && FirstAddressAt(env.describes, k, dns)
    requires forall j :: 0 <= j < |env.ingress| ==> Tolerated(env.ingress[j])
    requires env.upsertOk && env.insertOk
    ensures Connect(id, groupId, keyName, plan, env).0 == Provisioned(id, dns, keyName, plan.protocol)
  {
    PollFindsFirstAddress(env.describes, k, dns);
  }

  /** Any failure gives `Failed`: the launch reports a connection exactly when every call succeeds. */
  lemma ProvisionSucceedsIff(amiId: string, keyName: string, pricingTier: string, requested: Option<Protocol>, env: Responses)
    requires WellFormed(env)
    ensures Provision(amiId, keyName, pricingTier, requested, env).0.Provisioned? <==> AllCallsSucceed(env)
  {
    if k, dns :| FirstAddressAt(env.describes, k, dns) {
      PollFindsFirstAddress(env.describes, k, dns);
    }
  }

  /** A successful launch reports the inferred protocol and the first address the poll found. */
  lemma ProvisionedAddress(amiId: string, keyName: string, pricingTier: string, requested: Option<Protocol>, env: Responses)
    requires WellFormed(env)
    requires AllCallsSucceed(env)
    ensures var outcome := Provision(amiId, keyName, pricingTier, requested, env).0;
            && outcome.Provisioned?
            && outcome.protocol == InferProtocol(requested, FindLabel(env.catalog.value, amiId))
            && exists k :: FirstAddressAt(env.describes, k, outcome.dns)
  {
    ProvisionSucceedsIff(amiId, keyName, pricingTier, requested, env);
  }

  /**
    A successful launch ends by recording the connection under `keyName`
    with the address found, and the username, password and port of the
    plan; the first-boot script provisions that username and password.
   */
  lemma RecordedConnection(amiId: string, keyName: string, pricingTier: string, requested: Option<Protocol>, env: Responses)
    requires WellFormed(env)
    requires AllCallsSucceed(env)
    ensures var (outcome, trace) := Provision(amiId, keyName, pricingTier, requested, env);
            var plan := MakePlan(env.catalog.value, amiId, requested, env.random);
            && outcome.Provisioned?
            && |trace| >= 2
            && trace[|trace| - 2] == UpsertConnection(keyName, ProtocolName(plan.protocol))
            && trace[|trace| - 1] == InsertParameters(keyName,
                 Parameters(outcome.dns, Username(plan.protocol, plan.flags), plan.password, Port(plan.protocol)))
            && (plan.script != "" ==>
                  Contains(plan.script, Username(plan.protocol, plan.flags) + CredentialSeparator(plan.protocol, plan.flags) + plan.password))
  {
    ProvisionSucceedsIff(amiId, keyName, pricingTier, requested, env);
    var plan := MakePlan(env.catalog.value, amiId, requested, env.random);
    var inst := env.launch.instance.value;
    ProvisionLaunches(amiId, keyName, pricingTier, requested, env);
    ConnectSucceeded(inst.instanceId.value, inst.groupId, keyName, plan, env);
    ScriptSetsGatewayCredentials(plan.protocol, plan.flags, plan.password);
  }

  /**
    A successful launch first requested the instance with the plan's script
    as user data (which decodes back to the script's bytes), and opened the
    port the gateway will connect to.
   */
  lemma LaunchedAndOpened(amiId: string, keyName: string, pricingTier: string, requested: Option<Protocol>, env: Responses)
    requires WellFormed(env)
    requires AllCallsSucceed(env)
    ensures var trace := Provision(amiId, keyName, pricingTier, requested, env).1;
            var plan := MakePlan(env.catalog.value, amiId, requested, env.random);
            && |trace| >= 1
            && trace[0] == RunInstances(LaunchRequest(amiId, keyName, pricingTier, plan.script))
            && Base64.Decode(trace[0].request.userData) == Some(Utf8(plan.script))
            && AuthorizeIngress(env.launch.instance.value.groupId, Port(plan.protocol)) in trace
  {
    ProvisionSucceedsIff(amiId, keyName, pricingTier, requested, env);
    var plan := MakePlan(env.catalog.value, amiId, requested, env.random);
    var inst := env.launch.instance.value;
    ProvisionLaunches(amiId, keyName, pricingTier, requested, env);
    ConnectSucceeded(inst.instanceId.value, inst.groupId, keyName, plan, env);
    var (outcome, effects) := Connect(inst.instanceId.value, inst.groupId, keyName, plan, env);
    var describes := DescribeCalls(inst.instanceId.value, Poll(env.describes).1);
    var ingress := IngressCalls(inst.groupId, |IngressPorts|);
    var k := if plan.protocol == Rdp then 0 else if plan.protocol == Ssh then 1 else 2;
    assert ingress[k] == AuthorizeIngress(inst.groupId, Port(plan.protocol));
    assert effects[|describes| + k] == ingress[k];
  }

  /**
    Without an address after the fifteenth describe call the launch fails
    and nothing is opened or recorded: the trace is the launch followed by
    exactly fifteen describe calls.
   */
  lemma NoAddressNoConnection(amiId: string, keyName: string, pricingTier: string, requested: Option<Protocol>, env: Responses)
    requires WellFormed(env)
    requires env.catalog.Some? && LaunchedWithId(env.launch)
    requires forall j :: 0 <= j < |env.describes| ==> NoDnsYet(env.describes[j])
    ensures var (outcome, trace) := Provision(amiId, keyName, pricingTier, requested, env);
            && outcome == Failed
            && |trace| == 1 + PollAttempts
            && trace[0].RunInstances?
            && forall i :: 1 <= i < |trace| ==> trace[i] == DescribeInstance(env.launch.instance.value.instanceId.value)
  {
    var (outcome, trace) := Provision(amiId, keyName, pricingTier, requested, env);
    assert Poll(env.describes).0 == NotFound;
    assert forall i :: 1 <= i < |trace| ==> trace[i] in trace[1..];
  }

  /**
    A rejected ingress authorisation that is not a tolerated error stops
    the launch: it fails, the ports were tried in order up to the rejected
    one, and no gateway connection is recorded.
   */
  lemma IngressErrorStops(amiId: string, keyName: string, pricingTier: string, requested: Option<Protocol>, env: Responses, j: nat)
    requires WellFormed(env)
    requires env.catalog.Some? && LaunchedWithId(env.launch)
    requires exists k, dns :: FirstAddressAt(env.describes, k, dns)
    requires j < |env.ingress| && !Tolerated(env.ingress[j]) && forall i :: 0 <= i < j ==> Tolerated(env.ingress[i])
    ensures var (outcome, trace) := Provision(amiId, keyName, pricingTier, requested, env);
            && outcome == Failed
            && |trace| > j
            && trace[|trace| - (j + 1)..] == IngressCalls(env.launch.instance.value.groupId, j + 1)
            && forall e :: e in trace ==> !e.UpsertConnection? && !e.InsertParameters?
  {
    var plan := MakePlan(env.catalog.value, amiId, requested, env.random);
    var inst := env.launch.instance.value;
    ProvisionLaunches(amiId, keyName, pricingTier, requested, env);
    ConnectIngressError(inst.instanceId.value, inst.groupId, keyName, plan, env, j);
    var describes := DescribeCalls(inst.instanceId.value, Poll(env.describes).1);
    EndsWithIngress(RunInstances(LaunchRequest(amiId, keyName, pricingTier, plan.script)), describes, inst.groupId, j + 1);
  }

  /** A launch call, describe calls and then ingress calls: the trace ends with the ingress calls and has no gateway write. */
  lemma EndsWithIngress(launch: Effect, describes: seq<Effect>, groupId: Option<string>, n: nat)
    requires launch.RunInstances? && n <= |IngressPorts|
    requires forall e :: e in describes ==> e.DescribeInstance?
    ensures var trace := [launch] + (describes + IngressCalls(groupId, n));
            && |trace| >= n
            && trace[|trace| - n..] == IngressCalls(groupId, n)
            && forall e :: e in trace ==> !e.UpsertConnection? && !e.InsertParameters?
  {
    var ingress := IngressCalls(groupId, n);
    var trace := [launch] + (describes + ingress);
    assert trace == [launch] + describes + ingress;
    assert trace[|trace| - n..] == ingress;
    forall e | e in trace
      ensures !e.UpsertConnection? && !e.InsertParameters?
    {
      if e in ingress {
        var i :| 0 <= i < |ingress| && ingress[i] == e;
      }
    }
  }

  /** After launch, the describe calls come first and number at most fifteen. */
  lemma ConnectPollsFirst(id: string, groupId: Option<string>, keyName: string, plan: Plan, env: Responses)
    requires WellFormed(env)
    ensures var effects := Connect(id, groupId, keyName, plan, env).1;
            forall i :: 0 <= i < |effects| && effects[i].DescribeInstance? ==> i < PollAttempts
  {
    var effects := Connect(id, groupId, keyName, plan, env).1;
    var (polled, describeCount) := Poll(env.describes);
    var describes := DescribeCalls(id, describeCount);
    if !polled.Found? {
      assert effects == describes + [];
      DescribesBeforeRest(describes, [], PollAttempts);
    } else {
      var (portsOpen, ingressCount) := AuthorizeAll(env.ingress);
      var ingress := IngressCalls(groupId, ingressCount);
      var writes := [UpsertConnection(keyName, ProtocolName(plan.protocol)),
                     InsertParameters(keyName, Parameters(polled.dns, Username(plan.protocol, plan.flags), plan.password, Port(plan.protocol)))];
      var rest := if !portsOpen then ingress else if !env.upsertOk then ingress + writes[..1] else ingress + writes;
      assert effects == describes + rest;
      DescribesBeforeRest(describes, rest, PollAttempts);
    }
  }

  /** Describe calls followed by calls of other kinds: every describe call sits among the first `n` when there are at most `n`. */
  lemma DescribesBeforeRest(describes: seq<Effect>, rest: seq<Effect>, n: nat)
    requires |describes| <= n
    requires forall e :: e in rest ==> !e.DescribeInstance?
    ensures forall i :: 0 <= i < |describes + rest| && (describes + rest)[i].DescribeInstance? ==> i < n
  {
    forall i | |describes| <= i < |describes + rest|
      ensures !(describes + rest)[i].DescribeInstance?
    {
      assert (describes + rest)[i] == rest[i - |describes|];
    }
  }

  /** Putting one call that is not a describe call in front shifts every describe call by one position. */
  lemma DescribesAfterHead(head: Effect, effects: seq<Effect>, n: nat)
    requires !head.DescribeInstance?
    requires forall i :: 0 <= i < |effects| && effects[i].DescribeInstance? ==> i < n
    ensures forall i :: 0 <= i < |[head] + effects| && ([head] + effects)[i].DescribeInstance? ==> 1 <= i <= n
  {
    var t := [head] + effects;
    forall i | 0 <= i < |t| && t[i].DescribeInstance?
      ensures 1 <= i <= n
    {
      assert i != 0;
      assert t[i] == effects[i - 1];
    }
  }

  /** Whatever the answers, the address is polled at most fifteen times: describe calls sit at trace positions 1 to 15. */
  lemma PollIsBounded(amiId: string, keyName: string, pricingTier: string, requested: Option<Protocol>, env: Responses)
    requires WellFormed(env)
    ensures var trace := Provision(amiId, keyName, pricingTier, requested, env).1;
            forall i :: 0 <= i < |trace| && trace[i].DescribeInstance? ==> 1 <= i <= PollAttempts
  {
    if env.catalog.Some? && LaunchedWithId(env.launch) {
      var plan := MakePlan(env.catalog.value, amiId, requested, env.random);
      var inst := env.launch.instance.value;
      ProvisionLaunches(amiId, keyName, pricingTier, requested, env);
      ConnectPollsFirst(inst.instanceId.value, inst.groupId, keyName, plan, env);
      DescribesAfterHead(RunInstances(LaunchRequest(amiId, keyName, pricingTier, plan.script)),
                         Connect(inst.instanceId.value, inst.groupId, keyName, plan, env).1, PollAttempts);
    }
  }

  /** The first address is unique. */
  lemma FirstAddressUnique(describes: seq<DescribeOutcome>, k: nat, dns: string, k': nat, dns': string)
    requires FirstAddressAt(describes, k, dns) && FirstAddressAt(describes, k', dns')
    ensures k == k' && dns == dns'
  {
    PollFindsFirstAddress(describes, k, dns);
    PollFindsFirstAddress(describes, k', dns');
  }

  /** One step of writing a number in decimal: its last digit follows the digits of the rest. */
  lemma DecimalOfPort(n: nat, rest: nat, last: nat, digits: string)
    requires n >= 10 && rest == n / 10 && last == n % 10 && Decimal(rest) == digits
    ensures Decimal(n) == digits + [DigitChar(last)]
  {
  }

  /** The port parameter as written to the gateway database. */
  lemma PortStrings()
    ensures Decimal(Port(Rdp)) == "3389" && Decimal(Port(Ssh)) == "22" && Decimal(Port(Vnc)) == "5900"
  {
    DecimalOfPort(3389, 338, 9, "338");
    DecimalOfPort(338, 33, 8, "33");
    DecimalOfPort(33, 3, 3, "3");
    DecimalOfPort(22, 2, 2, "2");
    DecimalOfPort(5900, 590, 0, "590");
    DecimalOfPort(590, 59, 0, "59");
    DecimalOfPort(59, 5, 9, "5");
  }

  /**
    The answers of a launch from a catalog holding only the Ubuntu 22.04
    image `amiId`, whose address arrives on the second describe call and
    whose other calls all succeed.
   */
  ghost predicate UbuntuAnswers(amiId: string, dns: string, env: Responses) {
    && WellFormed(env)
    && env.catalog == Some([Ami(amiId, Labels[2])])
    && LaunchedWithId(env.launch)
    && FirstAddressAt(env.describes, 1, dns)
    && (forall j :: 0 <= j < |env.ingress| ==> Tolerated(env.ingress[j]))
    && env.upsertOk && env.insertOk
  }

  /** Launching the Ubuntu 22.04 image: ssh is inferred and the launch reports the launched instance at that address. */
  lemma UbuntuLaunchScenario(amiId: string, keyName: string, dns: string, env: Responses)
    requires UbuntuAnswers(amiId, dns, env)
    ensures Provision(amiId, keyName, "Standard", None, env).0
            == Provisioned(env.launch.instance.value.instanceId.value, dns, keyName, Ssh)
  {
    var plan := MakePlan(env.catalog.value, amiId, None, env.random);
    var inst := env.launch.instance.value;
    ProvisionLaunches(amiId, keyName, "Standard", None, env);
    ConnectProvisions(inst.instanceId.value, inst.groupId, keyName, plan, env, 1, dns);
    UbuntuPlan(amiId, env.random);
  }

  /** Launching on the Standard tier requests a t3.medium machine. */
  lemma StandardLaunchRequest(amiId: string, keyName: string, requested: Option<Protocol>, env: Responses)
    requires WellFormed(env) && env.catalog.Some?
    ensures var trace := Provision(amiId, keyName, "Standard", requested, env).1;
            |trace| >= 1 && trace[0].RunInstances? && trace[0].request.instanceType == Some("t3.medium")
  {
    assert ParseTier("Standard") == Some(Standard);
  }

  /** The Ubuntu 22.04 launch records a gateway connection as ubuntu on port 22 with the generated password. */
  lemma UbuntuGatewayParameters(amiId: string, keyName: string, dns: string, env: Responses)
    requires UbuntuAnswers(amiId, dns, env)
    ensures var trace := Provision(amiId, keyName, "Standard", None, env).1;
            var password := Password.GeneratePassword(Password.DefaultLength, env.random);
            && |trace| >= 1
            && trace[|trace| - 1] == InsertParameters(keyName,
                 [("hostname", dns), ("username", "ubuntu"), ("password", password),
                  ("ignore-cert", "true"), ("security", "any"), ("port", "22")])
  {
    var plan := MakePlan(env.catalog.value, amiId, None, env.random);
    var inst := env.launch.instance.value;
    var c := Connect(inst.instanceId.value, inst.groupId, keyName, plan, env);
    ProvisionLaunches(amiId, keyName, "Standard", None, env);
    UbuntuLaunchScenario(amiId, keyName, dns, env);
    assert c.0.Provisioned? && c.0.dns == dns;
    ConnectSucceeded(inst.instanceId.value, inst.groupId, keyName, plan, env);
    UbuntuPlan(amiId, env.random);
    UbuntuParameters(c.1, keyName, dns, plan);
  }

  /** The gateway parameters of an ssh connection as ubuntu, as the last call of a trace. */
  lemma UbuntuParameters(trace: seq<Effect>, keyName: string, dns: string, plan: Plan)
    requires plan.protocol == Ssh && Username(plan.protocol, plan.flags) == "ubuntu" && Port(plan.protocol) == 22
    requires |trace| >= 1
    requires trace[|trace| - 1] == InsertParameters(keyName,
               Parameters(dns, Username(plan.protocol, plan.flags), plan.password, Port(plan.protocol)))
    ensures trace[|trace| - 1]
            == InsertParameters(keyName, [("hostname", dns), ("username", "ubuntu"), ("password", plan.password),
                                          ("ignore-cert", "true"), ("security", "any"), ("port", "22")])
  {
    DecimalOfPort(22, 2, 2, "2");
    assert Decimal(22) == "22";
  }

  /** The plan for the catalog's Ubuntu 22.04 image: ssh, logging in as ubuntu on port 22. */
  lemma UbuntuPlan(amiId: string, random: seq<byte>)
    requires |random| == Password.DefaultLength
    ensures var plan := MakePlan([Ami(amiId, Labels[2])], amiId, None, random);
            plan.protocol == Ssh && Username(plan.protocol, plan.flags) == "ubuntu" && Port(plan.protocol) == 22
  {
    UbuntuLabel();
    assert FindLabel([Ami(amiId, Labels[2])], amiId) == Some(Labels[2]);
  }

  /** An image label without "Windows", "RDP" or "Ubuntu" that starts with "Amazon Linux" is Amazon Linux over ssh. */
  lemma AmazonLinuxFamily(name: string)
    requires 'W' !in name && 'R' !in name && 'U' !in name && StartsWith(name, "Amazon Linux")
    ensures Flags(Some(name)) == OsFlags(false, false, true) && InferProtocol(None, Some(name)) == Ssh
  {
    NotContainsMissing(name, "Windows", 'W');
    NotContainsMissing(name, "RDP", 'R');
    NotContainsMissing(name, "Ubuntu", 'U');
    ContainsAt(name, "Amazon Linux", 0);
  }

  /** An Amazon Linux label that mentions "RDP" at `at` (and neither "Windows" nor "Ubuntu") is Amazon Linux over rdp. */
  lemma AmazonDesktopFamily(name: string, at: nat)
    requires 'W' !in name && 'b' !in name && StartsWith(name, "Amazon Linux")
    requires at + 3 <= |name| && name[at..at + 3] == "RDP"
    ensures Flags(Some(name)) == OsFlags(false, false, true) && InferProtocol(None, Some(name)) == Rdp
  {
    NotContainsMissing(name, "Windows", 'W');
    ContainsAt(name, "RDP", at);
    NotContainsMissing(name, "Ubuntu", 'b');
    ContainsAt(name, "Amazon Linux", 0);
  }

  /** A label starting with "Ubuntu" without "Windows", "RDP" or "Amazon Linux" is Ubuntu over ssh. */
  lemma UbuntuFamily(name: string)
    requires 'W' !in name && 'R' !in name && 'A' !in name && StartsWith(name, "Ubuntu")
    ensures Flags(Some(name)) == OsFlags(false, true, false) && InferProtocol(None, Some(name)) == Ssh
  {
    NotContainsMissing(name, "Windows", 'W');
    NotContainsMissing(name, "RDP", 'R');
    ContainsAt(name, "Ubuntu", 0);
    NotContainsMissing(name, "Amazon Linux", 'A');
  }

  /** An Ubuntu label that mentions "RDP" at `at` (and not "Windows") is Ubuntu over rdp. */
  lemma UbuntuDesktopFamily(name: string, at: nat)
    requires 'W' !in name && 'A' !in name && StartsWith(name, "Ubuntu")
    requires at + 3 <= |name| && name[at..at + 3] == "RDP"
    ensures Flags(Some(name)) == OsFlags(false, true, false) && InferProtocol(None, Some(name)) == Rdp
  {
    NotContainsMissing(name, "Windows", 'W');
    ContainsAt(name, "RDP", at);
    ContainsAt(name, "Ubuntu", 0);
    NotContainsMissing(name, "Amazon Linux", 'A');
  }

  /** A label starting with "Windows" without "Ubuntu" or "Amazon Linux" is Windows over rdp. */
  lemma WindowsFamily(name: string)
    requires 'U' !in name && 'A' !in name && StartsWith(name, "Windows")
    ensures Flags(Some(name)) == OsFlags(true, false, false) && InferProtocol(None, Some(name)) == Rdp
  {
    ContainsAt(name, "Windows", 0);
    NotContainsMissing(name, "Ubuntu", 'U');
    NotContainsMissing(name, "Amazon Linux", 'A');
  }

  /** "Amazon Linux 2" is Amazon Linux, served over ssh. */
  lemma AmazonLinuxLabel()
    ensures Flags(Some(Labels[0])) == OsFlags(false, false, true) && InferProtocol(None, Some(Labels[0])) == Ssh
  {
    AmazonLinuxFamily(Labels[0]);
  }

  /** "Amazon Linux 2 GUI Desktop (RDP)" is Amazon Linux, served over rdp. */
  lemma AmazonDesktopLabel()
    ensures Flags(Some(Labels[1])) == OsFlags(false, false, true) && InferProtocol(None, Some(Labels[1])) == Rdp
  {
    AmazonDesktopFamily(Labels[1], 28);
  }

  /** "Ubuntu 22.04 LTS" is Ubuntu, served over ssh. */
  lemma UbuntuLabel()
    ensures Flags(Some(Labels[2])) == OsFlags(false, true, false) && InferProtocol(None, Some(Labels[2])) == Ssh
  {
    UbuntuFamily(Labels[2]);
  }

  /** "Ubuntu Desktop (RDP)" is Ubuntu, served over rdp. */
  lemma UbuntuDesktopLabel()
    ensures Flags(Some(Labels[3])) == OsFlags(false, true, false) && InferProtocol(None, Some(Labels[3])) == Rdp
  {
    UbuntuDesktopFamily(Labels[3], 16);
  }

  /** "Windows Server 2022" is Windows, served over rdp. */
  lemma WindowsLabel()
    ensures Flags(Some(Labels[4])) == OsFlags(true, false, false) && InferProtocol(None, Some(Labels[4])) == Rdp
  {
    WindowsFamily(Labels[4]);
  }
}

=== FILE: text.dfy ===
/**
  String and sequence utilities with the meaning JavaScript gives them:
  `startsWith`, `includes`, `split`/`join`, and ASCII `toLowerCase`.
 */
module Text {
  import opened Wrappers

  /** `s.startsWith(p)` */
  predicate StartsWith<T(==)>(s: seq<T>, p: seq<T>) {
    |p| <= |s| && s[..|p|] == p
  }

  /** `s.includes(t)`: `t` occurs somewhere in `s` (the empty needle always does). */
  predicate Contains<T(==)>(s: seq<T>, t: seq<T>)
    decreases |s|
  {
    StartsWith(s, t) || (|s| > 0 && Contains(s[1..], t))
  }

  /** An occurrence at a known offset is a containment. */
  lemma {:induction false} ContainsAt<T>(s: seq<T>, t: seq<T>, i: nat)
    requires i + |t| <= |s| && s[i..i + |t|] == t
    ensures Contains(s, t)
    decreases i
  {
    if i == 0 {
      assert s[..|t|] == t;
    } else {
      assert s[1..][i - 1..i - 1 + |t|] == s[i..i + |t|];
      ContainsAt(s[1..], t, i - 1);
    }
  }

  /** A needle holding an element the haystack lacks does not occur in it. */
  lemma {:induction false} NotContainsMissing<T>(s: seq<T>, t: seq<T>, c: T)
    requires c in t && c !in s
    ensures !Contains(s, t)
    decreases |s|
  {
    if |s| > 0 {
      assert forall x :: x in s[1..] ==> x in s;
      NotContainsMissing(s[1..], t, c);
    }
  }

  /** A containment in a prefix is a containment in the whole. */
  lemma {:induction false} ContainsExtend<T>(s: seq<T>, u: seq<T>, t: seq<T>)
    requires Contains(s, t)
    ensures Contains(s + u, t)
    decreases |s|
  {
    if StartsWith(s, t) {
      assert (s + u)[..|t|] == s[..|t|];
    } else {
      assert (s + u)[1..] == s[1..] + u;
      ContainsExtend(s[1..], u, t);
    }
  }

  /** A containment in a suffix is a containment in the whole. */
  lemma {:induction false} ContainsPrepend<T>(p: seq<T>, s: seq<T>, t: seq<T>)
    requires Contains(s, t)
    ensures Contains(p + s, t)
    decreases |p|
  {
    if |p| == 0 {
      assert p + s == s;
    } else {
      assert (p + s)[1..] == p[1..] + s;
      ContainsPrepend(p[1..], s, t);
    }
  }

  /** A sequence occurs in any sequence that has it in the middle. */
  lemma ContainsMiddle<T>(a: seq<T>, b: seq<T>, c: seq<T>)
    ensures Contains(a + b + c, b)
  {
    assert StartsWith(b, b);
    ContainsExtend(b, c, b);
    ContainsPrepend(a, b + c, b);
    assert a + (b + c) == a + b + c;
  }

  /**
    `s.split(d)`: the maximal delimiter-free runs of `s`, in order.
    Like JavaScript it always yields at least one field (`"".split(d) == [""]`).
   */
  function Split<T(==)>(s: seq<T>, d: T): (fields: seq<seq<T>>)
    ensures |fields| >= 1
    ensures forall k :: 0 <= k < |fields| ==> d !in fields[k]
    decreases |s|
  {
    if |s| == 0 then [[]]
    else
      var rest := Split(s[1..], d);
      if s[0] == d then [[]] + rest
      else [[s[0]] + rest[0]] + rest[1..]
  }

  /** `fields.join(d)` */
  function Join<T>(fields: seq<seq<T>>, d: T): seq<T>
    decreases |fields|
  {
    if |fields| == 0 then []
    else if |fields| == 1 then fields[0]
    else fields[0] + [d] + Join(fields[1..], d)
  }

  /** Joining four fields. */
  lemma JoinFour<T>(a: seq<T>, b: seq<T>, c: seq<T>, e: seq<T>, d: T)
    ensures Join([a, b, c, e], d) == a + [d] + b + [d] + c + [d] + e
  {
    assert [c, e][1..] == [e];
    assert Join([c, e], d) == c + [d] + e;
    assert [b, c, e][1..] == [c, e];
    assert Join([b, c, e], d) == b + [d] + (c + [d] + e);
    assert [a, b, c, e][1..] == [b, c, e];
    assert Join([a, b, c, e], d) == a + [d] + (b + [d] + (c + [d] + e));
  }

  /** `s.split(d)[k]`, which is `undefined` past the last field. */
  function Field<T(==)>(s: seq<T>, d: T, k: nat): Option<seq<T>> {
    var fields := Split(s, d);
    if k < |fields| then Some(fields[k]) else None
  }

  /** Joining the fields of a split gives back the original. */
  lemma {:induction false} JoinSplit<T>(s: seq<T>, d: T)
    ensures Join(Split(s, d), d) == s
    decreases |s|
  {
    if |s| > 0 {
      var rest := Split(s[1..], d);
      JoinSplit(s[1..], d);
      if s[0] == d {
        assert s == [d] + s[1..];
      } else if |rest| == 1 {
        assert s == [s[0]] + s[1..];
      } else {
        assert Split(s, d)[1..] == rest[1..];
        assert s == [s[0]] + (rest[0] + [d] + Join(rest[1..], d));
      }
    }
  }

  /** A delimiter-free run followed by the delimiter splits off as one field. */
  lemma {:induction false} SplitCons<T>(p: seq<T>, d: T, rest: seq<T>)
    requires d !in p
    ensures Split(p + [d] + rest, d) == [p] + Split(rest, d)
    decreases |p|
  {
    if |p| == 0 {
      assert p + [d] + rest == [d] + rest;
      assert ([d] + rest)[1..] == rest;
    } else {
      assert (p + [d] + rest)[1..] == p[1..] + [d] + rest;
      SplitCons(p[1..], d, rest);
      assert [p[0]] + p[1..] == p;
    }
  }

  /** A delimiter-free sequence is a single field. */
  lemma {:induction false} SplitNone<T>(p: seq<T>, d: T)
    requires d !in p
    ensures Split(p, d) == [p]
    decreases |p|
  {
    if |p| > 0 {
      SplitNone(p[1..], d);
      assert [p[0]] + p[1..] == p;
    }
  }

  /** Splitting a join of delimiter-free fields gives back the fields. */
  lemma {:induction false} SplitJoin<T>(fields: seq<seq<T>>, d: T)
    requires |fields| >= 1
    requires forall k :: 0 <= k < |fields| ==> d !in fields[k]
    ensures Split(Join(fields, d), d) == fields
    decreases |fields|
  {
    if |fields| == 1 {
      SplitNone(fields[0], d);
    } else {
      SplitJoin(fields[1..], d);
      SplitCons(fields[0], d, Join(fields[1..], d));
      assert fields == [fields[0]] + fields[1..];
    }
  }

  /** Every character is 7-bit ASCII. */
  predicate IsAscii(s: string) {
    forall i :: 0 <= i < |s| ==> s[i] as int < 128
  }

  /** `toLowerCase` on the ASCII letters. */
  function LowerChar(c: char): char {
    if 'A' <= c <= 'Z' then ((c as int) + 32) as char else c
  }

  /** `s.toLowerCase()`, restricted to ASCII case mapping. */
  function Lower(s: string): string {
    seq(|s|, i requires 0 <= i < |s| => LowerChar(s[i]))
  }

  /** The character of one decimal digit. */
  function DigitChar(d: nat): char
    requires d < 10
  {
    ('0' as int + d) as char
  }

  /** `String(n)` for a non-negative integer: its decimal digits, most significant first, without leading zeros. */
  function Decimal(n: nat): (s: string)
    ensures |s| >= 1
    ensures forall i :: 0 <= i < |s| ==> '0' <= s[i] <= '9'
    ensures |s| > 1 ==> s[0] != '0'
    decreases n
  {
    if n < 10 then [DigitChar(n)] else Decimal(n / 10) + [DigitChar(n % 10)]
  }

  /** Reads a string of decimal digits as a number. */
  function ParseDecimal(s: string): nat
    requires forall i :: 0 <= i < |s| ==> '0' <= s[i] <= '9'
    decreases |s|
  {
    if |s| == 0 then 0
    else ParseDecimal(s[..|s| - 1]) * 10 + (s[|s| - 1] as int - '0' as int)
  }

  /** Reading back the decimal form of a number gives the number. */
  lemma {:induction false} ParseDecimalOf(n: nat)
    ensures ParseDecimal(Decimal(n)) == n
    decreases n
  {
    if n >= 10 {
      var s := Decimal(n);
      assert s[..|s| - 1] == Decimal(n / 10);
      ParseDecimalOf(n / 10);
    }
  }
}

=== FILE: viewer.dfy ===
/**
  The desktop viewer's pure parts: the gateway client identifier used in a
  full-screen link (base 64 of `id NUL "c" NUL data-source`, padding removed),
  the filter over the gateway's connection list, and the tunnel connect string.
 */
module Viewer {
  import opened Wrappers
  import opened Text
  import opened Bytes
  import Base64

  /** The gateway's authentication data source. */
  const DataSource: string := "mysql"

  /** The connection-type marker of a client identifier ("c" for a connection). */
  const ConnectionType: string := "c"

  /** The octets of the identifier: the id, NUL, the type marker, NUL, the data source. */
  function IdentifierPayload(id: string): (payload: seq<byte>)
    requires IsAscii(id)
    ensures |payload| == |id| + 1 + |ConnectionType| + 1 + |DataSource|
    ensures payload == Join([AsciiBytes(id), AsciiBytes(ConnectionType), AsciiBytes(DataSource)], 0)
  {
    var payload := AsciiBytes(id) + [0] + AsciiBytes(ConnectionType) + [0] + AsciiBytes(DataSource);
    assert Join([AsciiBytes(ConnectionType), AsciiBytes(DataSource)], 0)
        == AsciiBytes(ConnectionType) + [0] + Join([AsciiBytes(DataSource)], 0);
    payload
  }

  /**
    `openFullscreen`'s encoded identifier: the base 64 encoding of the
    payload with its trailing `=` removed, which is the unpadded encoding.
   */
  function EncodeIdentifier(id: string): (encoded: string)
    requires IsAscii(id)
    ensures encoded == Base64.EncodeUnpadded(IdentifierPayload(id))
    ensures |encoded| == (4 * |IdentifierPayload(id)| + 2) / 3
    ensures forall i :: 0 <= i < |encoded| ==> Base64.IsAlphabetChar(encoded[i])
    ensures |encoded| > 0 && encoded[|encoded| - 1] != '='
  {
    Base64.StripEncode(IdentifierPayload(id));
    Base64.StripPadding(Base64.Encode(IdentifierPayload(id)))
  }

  /** Restoring the padding and decoding an encoded identifier gives back its payload. */
  lemma IdentifierDecodes(id: string)
    requires IsAscii(id)
    ensures Base64.Decode(Base64.Pad(EncodeIdentifier(id))) == Some(IdentifierPayload(id))
  {
    Base64.DecodeEncode(IdentifierPayload(id));
  }

  /** The parts of a payload: the NUL-separated fields, read as ASCII text; `None` unless there are exactly three. */
  function ParseIdentifier(payload: seq<byte>): Option<(string, string, string)> {
    var fields := Split(payload, 0);
    if |fields| == 3 && forall k, i :: 0 <= k < 3 && 0 <= i < |fields[k]| ==> fields[k][i] < 128 then
      Some((AsciiString(fields[0]), AsciiString(fields[1]), AsciiString(fields[2])))
    else None
  }

  /** Splitting the payload of an id without NUL at NUL gives the three byte strings it joins. */
  lemma PayloadFields(id: string)
    requires IsAscii(id) && 0 as char !in id
    ensures Split(IdentifierPayload(id), 0) == [AsciiBytes(id), AsciiBytes(ConnectionType), AsciiBytes(DataSource)]
  {
    var fields := [AsciiBytes(id), AsciiBytes(ConnectionType), AsciiBytes(DataSource)];
    assert 0 !in fields[0] by {
      forall i | 0 <= i < |id|
        ensures fields[0][i] != 0
      {
        assert fields[0][i] == id[i] as int;
      }
    }
    assert 0 !in fields[1] && 0 !in fields[2];
    SplitJoin(fields, 0);
  }

  /** The payload of an ASCII id without NUL reads back as the id, the type marker and the data source. */
  lemma ParsePayload(id: string)
    requires IsAscii(id) && 0 as char !in id
    ensures ParseIdentifier(IdentifierPayload(id)) == Some((id, ConnectionType, DataSource))
  {
    PayloadFields(id);
    AsciiRoundTrip(id);
    AsciiRoundTrip(ConnectionType);
    AsciiRoundTrip(DataSource);
  }

  /** An ASCII id without NUL is recovered, with the type marker and data source, from its encoded identifier. */
  lemma IdentifierRoundTrip(id: string)
    requires IsAscii(id) && 0 as char !in id
    ensures var payload := Base64.Decode(Base64.Pad(EncodeIdentifier(id)));
            payload.Some? && ParseIdentifier(payload.value) == Some((id, ConnectionType, DataSource))
  {
    IdentifierDecodes(id);
    ParsePayload(id);
  }

  /** A connection of the gateway's tree; name and identifier may be missing in the answer. */
  datatype Connection = Connection(name: Option<string>, identifier: Option<string>, protocol: Option<string>)

  /** `conn.identifier && conn.name`: both present and non-empty. */
  predicate IsValid(c: Connection) {
    c.identifier.Some? && c.identifier.value != "" && c.name.Some? && c.name.value != ""
  }

  /** `validConnections`: the connections that have an identifier and a name, in their original order. */
  function ValidConnections(cs: seq<Connection>): (r: seq<Connection>)
    ensures |r| <= |cs|
    ensures forall c :: c in r <==> c in cs && IsValid(c)
    decreases |cs|
  {
    if |cs| == 0 then []
    else if IsValid(cs[0]) then [cs[0]] + ValidConnections(cs[1..])
    else ValidConnections(cs[1..])
  }

  /** Filtering distributes over concatenation, so the relative order of kept connections is unchanged. */
  lemma {:induction false} ValidConnectionsAppend(a: seq<Connection>, b: seq<Connection>)
    ensures ValidConnections(a + b) == ValidConnections(a) + ValidConnections(b)
    decreases |a|
  {
    if |a| == 0 {
      assert a + b == b;
    } else {
      assert (a + b)[0] == a[0];
      assert (a + b)[1..] == a[1..] + b;
      ValidConnectionsAppend(a[1..], b);
    }
  }

  /** A list of valid connections is kept whole, so filtering twice is filtering once. */
  lemma {:induction false} ValidConnectionsIdempotent(cs: seq<Connection>)
    ensures ValidConnections(ValidConnections(cs)) == ValidConnections(cs)
    decreases |cs|
  {
    if |cs| > 0 {
      ValidConnectionsIdempotent(cs[1..]);
      if IsValid(cs[0]) {
        var rest := ValidConnections(cs[1..]);
        assert ([cs[0]] + rest)[0] == cs[0];
        assert ([cs[0]] + rest)[1..] == rest;
      }
    }
  }

  /** A stored token, or the text `null` that interpolating a missing one gives. */
  function TokenText(token: Option<string>): string {
    match token
    case Some(t) => t
    case None => "null"
  }

  /** The tunnel connect string: token, connection id, type marker and data source as `&`-joined `key=value` pairs. */
  function ConnectString(token: Option<string>, connectionId: string): (s: string)
    ensures StartsWith(s, "token=")
  {
    "token" + "=" + TokenText(token)
    + "&" + "GUAC_ID" + "=" + connectionId
    + "&" + "GUAC_TYPE" + "=" + ConnectionType
    + "&" + "GUAC_DATA_SOURCE" + "=" + DataSource
  }

  /** A `key=value` field: the text before the first `=` and the rest. */
  function KeyValue(field: string): (string, string) {
    var parts := Split(field, '=');
    (parts[0], Join(parts[1..], '='))
  }

  /** Reads a connect string back as its `key=value` pairs. */
  function ParseConnectString(s: string): seq<(string, string)> {
    var fields := Split(s, '&');
    seq(|fields|, i requires 0 <= i < |fields| => KeyValue(fields[i]))
  }

  /** A field built from a key and value free of `=` reads back as that pair. */
  lemma KeyValueOf(key: string, value: string)
    requires '=' !in key && '=' !in value
    ensures KeyValue(key + "=" + value) == (key, value)
  {
    assert key + "=" + value == Join([key, value], '=');
    SplitJoin([key, value], '=');
    assert Split(key + "=" + value, '=')[1..] == [value];
  }

  /** The `key=value` fields of a list of pairs. */
  function Fields(pairs: seq<(string, string)>): (fields: seq<string>)
    ensures |fields| == |pairs|
  {
    seq(|pairs|, i requires 0 <= i < |pairs| => pairs[i].0 + "=" + pairs[i].1)
  }

  /** Neither separator occurs in any key or value. */
  predicate Plain(pairs: seq<(string, string)>) {
    forall i :: 0 <= i < |pairs| ==>
      '&' !in pairs[i].0 && '=' !in pairs[i].0 && '&' !in pairs[i].1 && '=' !in pairs[i].1
  }

  /** Joining the fields of plain pairs with `&` reads back as the pairs. */
  lemma ParseJoinedPairs(pairs: seq<(string, string)>)
    requires |pairs| >= 1 && Plain(pairs)
    ensures ParseConnectString(Join(Fields(pairs), '&')) == pairs
  {
    var fields := Fields(pairs);
    forall k | 0 <= k < |fields|
      ensures '&' !in fields[k]
    {
      assert fields[k] == pairs[k].0 + "=" + pairs[k].1;
    }
    SplitJoin(fields, '&');
    forall i | 0 <= i < |pairs|
      ensures KeyValue(fields[i]) == pairs[i]
    {
      KeyValueOf(pairs[i].0, pairs[i].1);
    }
  }

  /** The pairs of the tunnel connect string, in order. */
  function ConnectPairs(token: Option<string>, connectionId: string): seq<(string, string)> {
    [("token", TokenText(token)), ("GUAC_ID", connectionId), ("GUAC_TYPE", ConnectionType), ("GUAC_DATA_SOURCE", DataSource)]
  }

  /** The connect string is the `&`-join of its `key=value` pairs. */
  lemma ConnectStringIsJoin(token: Option<string>, connectionId: string)
    ensures ConnectString(token, connectionId) == Join(Fields(ConnectPairs(token, connectionId)), '&')
  {
    var fields := Fields(ConnectPairs(token, connectionId));
    assert fields == [fields[0], fields[1], fields[2], fields[3]];
    JoinFour(fields[0], fields[1], fields[2], fields[3], '&');
  }

  /** With a token and id free of `&` and `=`, the connect string reads back as the four pairs it was built from. */
  lemma ConnectStringRoundTrip(token: string, connectionId: string)
    requires '&' !in token && '=' !in token && '&' !in connectionId && '=' !in connectionId
    ensures ParseConnectString(ConnectString(Some(token), connectionId))
            == [("token", token), ("GUAC_ID", connectionId), ("GUAC_TYPE", ConnectionType), ("GUAC_DATA_SOURCE", DataSource)]
  {
    ConnectStringIsJoin(Some(token), connectionId);
    ParseJoinedPairs(ConnectPairs(Some(token), connectionId));
  }
}

=== FILE: wrappers.dfy ===
/** Optional values: JavaScript's `undefined`/`null` next to a present value. */
module Wrappers {

  datatype Option<+T> = None | Some(value: T) {

    /** The present value, or `default` when absent (the `??` / `|| default` idiom). */
    function GetOr(default: T): T {
      match this
      case Some(v) => v
      case None => default
    }
  }
}
